=== FILE: README.md ===
# Trouble Flipper tournament engine — a Dafny model

Trouble Flipper is a team sliding-puzzle tournament. Players join and are cut into teams.
Each team solves a shuffled picture puzzle by swapping pieces, and character abilities
let teams help themselves or attack the team ranked just above them. This project
models the deterministic core of the Java server. It covers four parts:

- **Board** (`board.dfy`) is the puzzle board of one game (`model/Game.java`). The board is
  a `seq<int>` in which cell `k` holds the home index of the piece shown at slot `k`.
  The module models `start`, `findPuzzlePiece`, `swapPieces`, `isGameWon`, `starPower`,
  `troubleFlipper` and `greenShell`.
- **PuzzleMessage** (`puzzle_message.dfy`) is the `UpdatePuzzleMessage.toString` printer.
  The module also has a reader, and proves that reading the printed text back returns the board.
- **Players**, **Teams**, **Ranking** and **Countdown** are the self-contained parts of
  `Tournament.java`:
  - **Players** is the roster and its removal.
  - **Teams** is team formation with 404 drops.
  - **Ranking** holds the two ranking comparators, modelled as one stable sort.
  - **Countdown** is the character-selection countdown task.
- **Tournament** (`tournament.dfy`) is the tournament state record with an invariant
  `Valid`. It covers `buildTeams`, `stopGames`, `gameOver` and the replacement game,
  `addUser`, the waiting/teams summary, attack targeting and the periodic tasks. Each
  operation is proved to preserve `Valid`.

`Options` and `Sequences` hold the shared helpers:
- `Option`;
- `Filter`, `Flatten` and `Map`;
- the first-occurrence search;
- the shuffle.

Randomness is an explicit parameter. `Collections.shuffle` is modelled as the
Fisher–Yates pass it performs: for `i` from the size down to 2, it swaps `i - 1` with
`nextInt(i)`. The random draws are passed in as a sequence of rolls, each reduced modulo
its bound.

Every outcome of the messaging layer that the code inspects is a boolean input:
- an acknowledgement publish that fails;
- a subscription that fails with 404;
- a forced-pick publish that fails;
- a game's `stop()` / `isGameOver()` / `isCharacterReadyForTeam()`.

Each run of a timer task is one explicit call.

## Model

| member | source | states |
|---|---|---|
| Board.PuzzleLength | server/src/main/java/com/solace/troubleflipper/model/Game.java:104-105 | The piece count is `size * size` computed in 32-bit `int` arithmetic. It is positive exactly when the product modulo 2^32 lies in (0, 2^31), and then it equals that remainder. A product that wraps negative creates no pieces, and a product that fits is exact. |
| Board.Start | server/src/main/java/com/solace/troubleflipper/model/Game.java:102-112 | The new pieces are home indices `0 .. size²-1`, appended and then shuffled together with the old board. Length and multiset are old + new. From an empty board the result is a permutation of length `size²`. |
| Sequences.Shuffle | server/src/main/java/com/solace/troubleflipper/model/Game.java:110 | The shuffle only reorders: the length and the multiset of elements are kept, for any rolls. |
| Board.FindPuzzlePiece | server/src/main/java/com/solace/troubleflipper/model/Game.java:93-100 | The result is the first slot holding `v`, and no earlier slot holds `v`. It fails (`None`) exactly when no slot holds `v`. |
| Board.SwapPieces | server/src/main/java/com/solace/troubleflipper/model/Game.java:64-74 | Length and multiset are unchanged. If either lookup misses, the board is unchanged. Otherwise the first slot holding `a` gets `c`, the first slot holding `c` gets `a`, and every other slot is unchanged. |
| Board.SwapExchangesValues | server/src/main/java/com/solace/troubleflipper/model/Game.java:67-70 | On a board without repeated indices a swap replaces every `a` by `c` and every `c` by `a`. |
| Board.SwapPreservesPermutation | server/src/main/java/com/solace/troubleflipper/model/Game.java:64-70 | A swap keeps a permutation board a permutation. |
| Board.SwapTwiceRestores | server/src/main/java/com/solace/troubleflipper/model/Game.java:67-70 | On a board without repeated indices, the same swap done twice gives back the original board. |
| Board.IsGameWon | server/src/main/java/com/solace/troubleflipper/model/Game.java:137-150 | The cached count is the number of slots `k` with `board[k] == k`. The result is true iff every slot is correct, iff that count equals the length. An empty board is won. |
| Board.CorrectSlotsFacts | server/src/main/java/com/solace/troubleflipper/model/Game.java:141-146 | The list of correct slots the scan counts holds exactly the slots `k` with `board[k] == k`, each once, in increasing order. |
| Board.CountIffSolved | server/src/main/java/com/solace/troubleflipper/model/Game.java:141-148 | The correct count never exceeds the board length. It equals the length exactly when the board is solved. |
| Board.StarPower | server/src/main/java/com/solace/troubleflipper/model/Game.java:197-201 | A selected index outside the board fails, as `puzzleBoard.get` does. Otherwise the multiset, immunity and cached count are kept, and only the slots holding `v` or the piece in slot `v` can change. |
| Board.StarPowerPlacesPiece | server/src/main/java/com/solace/troubleflipper/model/Game.java:197-201 | On a permutation board, piece `v` ends in slot `v`, the piece that was there moves to the slot `v` came from, and no other slot changes. The board stays a permutation, and the correct count strictly rises when slot `v` was wrong. |
| Board.TroubleFlipper | server/src/main/java/com/solace/troubleflipper/model/Game.java:203-209 | An immune game is unchanged. Otherwise the board is reordered: the multiset is kept and a permutation stays a permutation. |
| Board.GreenShellPicks | server/src/main/java/com/solace/troubleflipper/model/Game.java:213-222 | The shuffled list of correct slots is a reordering of the correct slots. Each entry is a distinct correct slot. |
| Board.AliasedSwap | server/src/main/java/com/solace/troubleflipper/model/Game.java:64-70 | Called with two cells of the board itself, the swap changes only the two looked-up slots. |
| Board.AliasedSwapOnDistinct | server/src/main/java/com/solace/troubleflipper/model/Game.java:69-70 | On a board without repeated indices, slot `s1` receives `b[s2]` and slot `s2` keeps `b[s2]`, because line 70 re-reads the cell just overwritten. |
| Board.GreenShell | server/src/main/java/com/solace/troubleflipper/model/Game.java:211-228 | As written: an immune game, or one with fewer than two correct slots, is unchanged. Otherwise the length is kept and at most two slots change. |
| Board.GreenShellBreaksPermutation | server/src/main/java/com/solace/troubleflipper/model/Game.java:211-228 | As written, on a permutation board: the first pick's slot becomes incorrect (it gets the second pick's index) and the second stays correct. The board stops being a permutation, so no reordering of it is solved. |
| Board.GreenShellCounterexample | server/src/main/java/com/solace/troubleflipper/model/Game.java:224 | On board [0,1,3,2] with rolls [1], the as-written green shell gives [1,1,3,2]. |
| Board.GreenShellIntended | server/src/main/java/com/solace/troubleflipper/model/Game.java:211-228 | Corrected green shell: the same gating, and the multiset is kept. |
| Board.GreenShellIntendedSwapsPicks | server/src/main/java/com/solace/troubleflipper/model/Game.java:223-224 | Corrected green shell on a permutation board: the two picked slots exchange their pieces and both become incorrect. Nothing else changes, and the board stays a permutation. |
| Board.GreenShellIntendedSample | server/src/main/java/com/solace/troubleflipper/model/Game.java:224 | On board [0,1,3,2] with rolls [1], the corrected green shell gives [1,0,3,2]. |
| PuzzleMessage.Render | server/src/main/java/com/solace/troubleflipper/messages/UpdatePuzzleMessage.java:20-28 | The output starts with `Puzzle: [` and ends with `]`. A null puzzle and an empty puzzle both give exactly `Puzzle: []`. |
| PuzzleMessage.RenderRoundTrip | server/src/main/java/com/solace/troubleflipper/messages/UpdatePuzzleMessage.java:24 | The body is the decimal indices in board order joined by commas: reading it back gives exactly the board. |
| PuzzleMessage.RenderCommaCount | server/src/main/java/com/solace/troubleflipper/messages/UpdatePuzzleMessage.java:24 | A board of `n >= 1` indices prints exactly `n - 1` commas. |
| PuzzleMessage.RenderNoEdgeCommas | server/src/main/java/com/solace/troubleflipper/messages/UpdatePuzzleMessage.java:24 | A non-empty board's body has no leading or trailing comma. |
| PuzzleMessage.IntRoundTrip | server/src/main/java/com/solace/troubleflipper/messages/UpdatePuzzleMessage.java:24 | The decimal rendering of an index (sign included) reads back as the same integer. |
| PuzzleMessage.SplitJoin | server/src/main/java/com/solace/troubleflipper/messages/UpdatePuzzleMessage.java:24 | Splitting comma-joined comma-free parts at the commas gives back the parts. |
| Players.RemoveClient | server/src/main/java/com/solace/troubleflipper/Tournament.java:135-137 | Removing a present client drops exactly its first occurrence: the survivors keep their order. Removing a player keeps only original players, and an absent client leaves the list unchanged. With unique ids, the client is gone, ids stay unique and everyone else stays. |
| Ranking.StableSort | server/src/main/java/com/solace/troubleflipper/Tournament.java:325-329 | `List.sort` is stable. The result is sorted by key descending and is a permutation of the input. For every key, the elements with that key keep their relative order. |
| Ranking.RankPlayers | server/src/main/java/com/solace/troubleflipper/Tournament.java:325-329 | The player ranking is a permutation of the previous ranking, ordered by `rightMoves - wrongMoves` descending. Equal scores keep their previous relative order. |
| Ranking.RankTeams | server/src/main/java/com/solace/troubleflipper/Tournament.java:377-383 | The team ranking is a permutation ordered by completed games descending, then by cached correct pieces descending. Teams equal on both keep their order. |
| Teams.Chunks | server/src/main/java/com/solace/troubleflipper/Tournament.java:235-250 | With `K >= 1`, the roster is cut into consecutive non-empty chunks whose concatenation is the roster. Every chunk has `K` players except possibly the last, which has at most `K`. The number of chunks `c` satisfies `(c-1)*K < N <= c*K`, so `c = ceil(N/K)`. With `K < 1` there is one chunk. |
| Teams.PrepareTeams | server/src/main/java/com/solace/troubleflipper/Tournament.java:224-256 | With a non-empty roster and a team size of 0, the logged team count divides by zero and no team is formed (`None`). Otherwise the formation has one team per chunk, its roster keeps exactly the reachable players, and the ranking is the roster. |
| Teams.FormTeams | server/src/main/java/com/solace/troubleflipper/Tournament.java:235-256 | There is one team per chunk. Each team keeps exactly the reachable players of its chunk. The ranking is the teams' members in order, and the roster keeps exactly the reachable players. |
| Teams.FormationDropsUnreachable | server/src/main/java/com/solace/troubleflipper/Tournament.java:432-442 | No player whose subscription failed with 404 stays in the roster or a team. Every member of the `i`-th team carries that team's id. |
| Countdown.Step | server/src/main/java/com/solace/troubleflipper/Tournament.java:261-302 | A cancelled task does nothing. If the tournament is not started, the task cancels. Otherwise the counter is decremented. While it is positive, all-ready cancels and starts the games; otherwise the task continues. The first exhaustion resets the counter to 5 and keeps running. The second exhaustion, or a failed publish, cancels without starting games. |
| Countdown.StepSpendsBudget | server/src/main/java/com/solace/troubleflipper/Tournament.java:267-297 | Every run of a scheduled task strictly lowers its remaining budget: the counter plus the unused 5-run grace. |
| Countdown.RunsWithinBudget | server/src/main/java/com/solace/troubleflipper/Tournament.java:258-305 | Whatever the inputs, a task runs at most its budget many times. |
| Countdown.AtMostFifteenRuns | server/src/main/java/com/solace/troubleflipper/Tournament.java:258-305 | The countdown set up by `prepareTeams` runs at most 15 times. |
| Countdown.IdleExhausts | server/src/main/java/com/solace/troubleflipper/Tournament.java:267-297 | `w` runs with nobody ready use up a counter of `w`. They grant the grace period, or cancel the task if it was already granted, and never start games. |
| Countdown.IdleCountdownLastsFifteenRuns | server/src/main/java/com/solace/troubleflipper/Tournament.java:281-297 | With nobody ready, the countdown runs exactly 15 times and is then cancelled without starting the games. |
| Tournament.InitialValid | server/src/main/java/com/solace/troubleflipper/Tournament.java:24-40 | A new tournament satisfies the state invariant. |
| Tournament.BuildTeams | server/src/main/java/com/solace/troubleflipper/Tournament.java:146-162 | Ignored with an empty roster or a running tournament. Otherwise it starts the tournament and clears the teams, games and replacements. With a team size of 0 it stops there: no team, empty rankings, the roster unchanged and no countdown scheduled. Otherwise there is one active, fresh game per chunk with empty histories and a fresh countdown. The roster keeps the reachable players, and the player ranking is the roster. |
| Tournament.BuildTeamsFillsChunks | server/src/main/java/com/solace/troubleflipper/Tournament.java:235-256 | With a non-zero team size, team `nextTeamId + i` holds exactly the reachable players of the `i`-th chunk of the roster, and its fresh game is its active game. |
| Tournament.BuildTeamsPreservesValid | server/src/main/java/com/solace/troubleflipper/Tournament.java:211-256 | `buildTeams` keeps the state invariant (unique client ids, consistent team maps and ranking). |
| Tournament.StopGames | server/src/main/java/com/solace/troubleflipper/Tournament.java:163-192 | Ignored unless the tournament runs. Otherwise it clears both flags and cancels the countdown and pending replacements. Each won active game leaves the active games and is appended to its team's history. Its team's counter rises by one, and the team's members and game stay as they were. Every other team is untouched. Players, rankings, the countdown counters and the id generator do not change. |
| Tournament.StopGamesPreservesValid | server/src/main/java/com/solace/troubleflipper/Tournament.java:182-189 | `stopGames` keeps each team's counter equal to its history length, and the rest of the invariant. |
| Tournament.GameOver | server/src/main/java/com/solace/troubleflipper/Tournament.java:479-505 | Acts only while both flags are set and the game is over, for a registered team. The team's game leaves the active games, the reported game is appended to its history, and the counter rises by one. A replacement game of the next round is added to the pending replacements. Every other team, every other pending replacement, the players, both rankings, the flags, the countdown and the id generator are untouched. |
| Tournament.GameOverPreservesValid | server/src/main/java/com/solace/troubleflipper/Tournament.java:484-491 | `gameOver` keeps the state invariant. |
| Tournament.ActivateReplacement | server/src/main/java/com/solace/troubleflipper/Tournament.java:492-502 | The cooldown task makes the replacement game active only while both flags are set. Either way the task is spent. Only that team's active game and its own pending entry can change; every other field stays as it was. |
| Tournament.ActivateReplacementPreservesValid | server/src/main/java/com/solace/troubleflipper/Tournament.java:495-496 | The replacement task keeps the state invariant. |
| Tournament.ActiveTeamOf | server/src/main/java/com/solace/troubleflipper/Tournament.java:100-102 | A team found for a returning player has an active game and lists the player as a member. No team is found only when no searched team with an active game lists the player. |
| Tournament.ActiveTeamOfCoversActiveGames | server/src/main/java/com/solace/troubleflipper/Tournament.java:100-102 | In a valid state, the search finds nothing exactly when no active game's team holds the player. |
| Tournament.UpsertRenamesInPlace | server/src/main/java/com/solace/troubleflipper/Tournament.java:78-92 | A known client id keeps its place, team and scores and only gets the new name. An unknown id is appended as a teamless player with no moves. No other player changes, and the id list grows only by the new id. |
| Tournament.UpsertRegisters | server/src/main/java/com/solace/troubleflipper/Tournament.java:78-92 | A known client id gets the new name in place; an unknown one is appended. Client ids stay unique, the client is listed with the new name, and every other player keeps its place. |
| Tournament.AddUser | server/src/main/java/com/solace/troubleflipper/Tournament.java:56-141 | A game master leaves the tournament unchanged. A join touches only the roster, the player ranking and the members of at most one team. The ranking and the teams change only when the acknowledgement succeeds, the re-subscription is lost and the client's roster entry has a team. With no team on that entry, line 107 fails before any subscription, so only the upsert remains. Every team keeps its completed-game counter and its game. |
| Tournament.AddUserSuccessRegisters | server/src/main/java/com/solace/troubleflipper/Tournament.java:78-97 | A successful join leaves exactly the upserted roster, with the client once under its new name. This includes a teamless roster entry, which fails at line 107 before it could be removed. |
| Tournament.AddUserAckFailureRemoves | server/src/main/java/com/solace/troubleflipper/Tournament.java:135-137 | When the acknowledgement cannot be published, the client is not on the roster afterwards, even if it was registered before. Every other player stays. |
| Tournament.AddUserLostPlayerRemoved | server/src/main/java/com/solace/troubleflipper/Tournament.java:105-118 | A returning player of an active game, whose roster entry has a team and whose re-subscription fails with 404, leaves the roster, the player ranking and its team. Every other player stays on the roster and in the ranking, and the team stays registered. |
| Tournament.AddUserPreservesValid | server/src/main/java/com/solace/troubleflipper/Tournament.java:76-141 | `addUser` keeps client ids unique, and the rest of the invariant. |
| Tournament.Summarize | server/src/main/java/com/solace/troubleflipper/Tournament.java:454-465 | The waiting list is exactly the teamless players in roster order. The team list has no repetition, contains the team of every assigned player, and contains only such teams. |
| Tournament.SummaryFirstAppearance | server/src/main/java/com/solace/troubleflipper/Tournament.java:457-465 | The team list is in the order of each team's first player on the roster. |
| Tournament.SummaryCovers | server/src/main/java/com/solace/troubleflipper/Tournament.java:457-465 | Every player is either waiting or assigned: the two counts add up to the roster size. |
| Tournament.AttackTarget | server/src/main/java/com/solace/troubleflipper/Tournament.java:508-545 | Outside gameplay nothing happens. The leading team hits no one, and an unranked attacker fails. Otherwise the target is the team ranked immediately above the attacker's first position, and it is never the attacker's own team. |
| Tournament.ApplyAttack | server/src/main/java/com/solace/troubleflipper/Tournament.java:516-517 | An attack changes at most the target's game and keeps the set of games. |
| Tournament.AttackSparesLeaderAndAttacker | server/src/main/java/com/solace/troubleflipper/Tournament.java:512-517 | An attack by the leading team changes no board, and an attack never changes the attacker's own board. |
| Tournament.FlipperHit | server/src/main/java/com/solace/troubleflipper/Tournament.java:517 | The trouble flipper leaves an immune game unchanged, and always keeps the board's multiset and the immunity flag. |
| Tournament.GreenShellHit | server/src/main/java/com/solace/troubleflipper/Tournament.java:537 | The corrected green shell leaves a game that is immune, or has fewer than two correct slots, unchanged. It always keeps the board's multiset and the immunity flag. |
| Tournament.ImmuneTargetUnchanged | server/src/main/java/com/solace/troubleflipper/Tournament.java:536-537 | An immune target's board survives trouble flipper and both green shells, so no board changes. |
| Tournament.CountdownTick | server/src/main/java/com/solace/troubleflipper/Tournament.java:258-302 | The games are started exactly when they already were, or when a running tournament's scheduled countdown still had time and saw all games ready. The countdown advances by one step of the countdown task. A run with no scheduled countdown changes nothing, a stopped tournament cancels it, and starting the games ends it. Nothing but the countdown and `gameStarted` changes. |
| Tournament.CountdownTickPreservesValid | server/src/main/java/com/solace/troubleflipper/Tournament.java:258-305 | A countdown run keeps the invariant, including that a scheduled countdown has a positive counter. |
| Tournament.RankPlayersTick | server/src/main/java/com/solace/troubleflipper/Tournament.java:318-329 | During gameplay the player ranking is re-sorted by score descending, as a permutation, with players of equal score in their previous order. Otherwise nothing changes. |
| Tournament.RankPlayersTickPreservesValid | server/src/main/java/com/solace/troubleflipper/Tournament.java:325-329 | Re-sorting the player ranking keeps its client ids unique, and the rest of the invariant. |
| Tournament.RankTeamsTick | server/src/main/java/com/solace/troubleflipper/Tournament.java:369-383 | During gameplay the team ranking is re-sorted by completed games descending, then by correct pieces descending, as a permutation, with teams equal on both in their previous order. Otherwise nothing changes. |
| Tournament.RankTeamsTickPreservesValid | server/src/main/java/com/solace/troubleflipper/Tournament.java:376-383 | Re-sorting the team ranking keeps it a repetition-free listing of exactly the registered teams. |

## Left out

- Messaging is not modelled: publishing, subscribing, handler registration and logging. Their outcomes that the code branches on are boolean inputs. This includes a 404 from `subscribeForClient`, reduced to membership in a set of unreachable client ids.
- Timers and concurrency are not modelled: `java.util.Timer`, its delays and periods, and the `synchronized` blocks. Each task run is one call on a single thread. Cancelling the timer is modelled as the countdown and pending replacements being dropped.
- Randomness (`Collections.shuffle`, `Random.nextInt`) is an explicit sequence of rolls.
- The move scoring in `swapPieces` (Game.java lines 75-90) depends on `PuzzlePiece.equals` through `indexOf`. PuzzlePiece is not part of this model, so the scoring is left out.
- The character handlers and the yoshi immunity timer (Game.java lines 162-195) are left out. They depend on the Mario, Yoshi and Player classes, which are not part of this model. Immunity is a plain flag on the game.
- `updatePuzzleForTeam`, `getTextMessage` and the message construction are left out: they are serialisation and publishing.
- `client/src/messaging/messages.js` is browser glue over JSON parsing and the messaging client, and is not modelled.
- The Game calls that the tournament makes but Game.java does not define are inputs. These are the tournament's game constructor, `stop()`, `isGameOver()` and `isCharacterReadyForTeam()`. Games appear in the tournament only as a team id and a round.
- Tournament.FlipperHit: the attack calls `troubleFlipper(Player)`, which Game.java does not define. It is modelled as the shown `troubleFlipper()` (Board.TroubleFlipper); the player argument is ignored, so the attack's immunity gating rests on that assumption.
- Team names, puzzle names (`getNewTeamName`, `chooseNextPuzzleName`) and `Player.reset` are not modelled: Team and Player internals are not part of this model. Team ids are generated as consecutive numbers.
- Ranking.RankPlayers: the comparator's `player2Score - player1Score` can overflow `int` for extreme scores. The model compares unbounded scores, so it is the comparator evidently intended.
- Ranking.RankTeams: the team comparator's subtractions are likewise compared unbounded. `correct` is an input: the cached correct-piece count of each team's current game.
- Tournament.ActiveTeamOf: `activeGames.values()` is searched in HashMap order. The model searches in team-ranking order, so when a player is listed in two active teams (which the code never produces) the chosen team may differ.
- Tournament.AddUser: the broadcast and the re-publish of the team's characters or puzzle after a reconnect are not modelled. Players are values here, while the code shares one Player object between the roster, the player ranking and the team. A rename at Tournament.java line 85 therefore changes only the roster entry in the model; the ranking and team copies keep the old display name. When a known client's roster entry has no team but an active team still lists the client (possible after a failed acknowledgement and a rejoin), line 107 throws a null-reference error. No handler in the code catches it. The model ends the join at that point with the upserted roster, and does not model the exception itself.
- Tournament.StopGames: a failure in the middle of the loop that throws a null-pointer exception (a team missing from `completedGames`) is excluded by the state invariant it requires.
- Tournament.GameOver: a reported game whose team is no longer registered throws a null-pointer exception; the model leaves the state unchanged, which is what the exception leaves behind. The model requires the state invariant.
- The value of the logged `numberOfTeams` (Tournament.java line 229) is not modelled, because the formation loop decides the team count. Its division by a team size of 0 is modelled in Teams.PrepareTeams.
- Tournament.GreenShellHit: the tournament's green-shell attack uses the corrected green shell (see Findings), not the code as written. Board.GreenShell models the code as written, and Tournament.ImmuneTargetUnchanged covers both versions.

## Findings

| source | as written | input that shows it | evidently intended | confidence | as-written member | corrected member |
|---|---|---|---|---|---|---|
| server/src/main/java/com/solace/troubleflipper/model/Game.java:224 | `greenShell` passes two board cells to `swapPieces`. Line 69 overwrites the first cell, and line 70 then reads that overwritten cell. The first slot gets the second index, and the second slot keeps its own. | Board [0,1,3,2] with shuffle roll [1] (correct slots 0 and 1 in that order) gives [1,1,3,2]. Index 0 is lost, so the board can never be solved again. | The two picked correct pieces exchange places, giving [1,0,3,2]. Both slots become incorrect and the board stays a permutation. | not executed | Board.GreenShell, Board.GreenShellCounterexample, Board.GreenShellBreaksPermutation | Board.GreenShellIntended, Board.GreenShellIntendedSwapsPicks |


=== FILE: board.dfy ===
/** The puzzle board of one team's game (model/Game.java): a fixed row of grid slots, each
    showing a piece that carries its home index. Slot `k` is correct when its piece's home
    index is `k`. Shuffles take their random rolls as a parameter. */
module Board {

  import opened Options
  import opened Sequences

  /** Cell `k` holds the home index of the piece shown at grid slot `k`. */
  type Board = seq<int>

  /** One team's game: its board, Yoshi's immunity flag and the count of correct cells
      cached by the last win check. */
  datatype Game = Game(board: Board, immune: bool, correctPieces: int)

  /** Every slot shows its own piece. */
  predicate Solved(b: Board) {
    forall k | 0 <= k < |b| :: b[k] == k
  }

  /** The board holds each home index 0 .. |b| - 1 exactly once. */
  predicate IsPermutation(b: Board) {
    multiset(b) == multiset(Iota(|b|))
  }

  // ---------------------------------------------------------------------------------------
  // Permutation facts
  // ---------------------------------------------------------------------------------------

  /** A permutation board has no repeated index, only indices in range, and every index. */
  lemma PermutationFacts(b: Board)
    requires IsPermutation(b)
    ensures Distinct(b)
    ensures forall k | 0 <= k < |b| :: 0 <= b[k] < |b|
    ensures forall v | 0 <= v < |b| :: v in b
  {
    var n := |b|;
    DistinctByMultiset(b, Iota(n));
    forall k | 0 <= k < n
      ensures 0 <= b[k] < n
    {
      assert b[k] in multiset(b);
      assert b[k] in Iota(n);
    }
    forall v | 0 <= v < n
      ensures v in b
    {
      assert Iota(n)[v] == v;
      assert v in multiset(Iota(n));
    }
  }

  /** A solved board is a permutation, so a board that is not a permutation can never be won. */
  lemma SolvedIsPermutation(b: Board)
    requires Solved(b)
    ensures IsPermutation(b)
  {
    assert b == Iota(|b|);
  }

  /** Whether a board is a permutation depends only on its multiset of indices. */
  lemma PermutationByMultiset(a: Board, b: Board)
    requires multiset(a) == multiset(b)
    ensures IsPermutation(a) <==> IsPermutation(b)
  {
    assert |a| == |multiset(a)| == |multiset(b)| == |b|;
  }

  /** In a board without repetitions the search for a present value finds its only slot. */
  lemma FindInDistinct(b: Board, k: nat)
    requires Distinct(b) && k < |b|
    ensures FindFirst(b, b[k]) == Some(k)
  {
  }

  // ---------------------------------------------------------------------------------------
  // start
  // ---------------------------------------------------------------------------------------

  /** The Java `int` (32-bit two's-complement) value congruent to `x`. */
  function WrapInt(x: int): (r: int)
    ensures -0x8000_0000 <= r < 0x8000_0000
    ensures (r - x) % 0x1_0000_0000 == 0
    ensures -0x8000_0000 <= x < 0x8000_0000 ==> r == x
  {
    (x + 0x8000_0000) % 0x1_0000_0000 - 0x8000_0000
  }

  /** The number of pieces `start` creates: `size * size` in `int` arithmetic; a negative
      product runs the creation loop zero times. */
  function PuzzleLength(size: int): (n: nat)
    requires -0x8000_0000 <= size < 0x8000_0000
    ensures n < 0x8000_0000
    ensures size * size < 0x8000_0000 ==> n == size * size
    ensures n > 0 <==> 0 < (size * size) % 0x1_0000_0000 < 0x8000_0000
    ensures n > 0 ==> n == (size * size) % 0x1_0000_0000
  {
    var sq := size * size;
    WrapOfNatural(sq);
    var p := WrapInt(sq);
    if p < 0 then 0 else p
  }

  /** A natural number wraps to a non-negative `int` exactly when its remainder modulo 2^32
      is below 2^31, and then it wraps to that remainder. */
  lemma WrapOfNatural(x: int)
    requires x >= 0
    ensures WrapInt(x) >= 0 <==> x % 0x1_0000_0000 < 0x8000_0000
    ensures WrapInt(x) >= 0 ==> WrapInt(x) == x % 0x1_0000_0000
  {
    var m := x % 0x1_0000_0000;
    var q := x / 0x1_0000_0000;
    assert x == q * 0x1_0000_0000 + m;
    assert (x + 0x8000_0000) % 0x1_0000_0000 == (m + 0x8000_0000) % 0x1_0000_0000;
  }

  /** `start`: appends pieces with home indices 0 .. size² - 1 and shuffles the whole board.
      On a fresh game the board becomes a permutation of length size². */
  function Start(g: Game, size: int, rolls: seq<nat>): (r: Game)
    requires -0x8000_0000 <= size < 0x8000_0000
    ensures r.immune == g.immune && r.correctPieces == g.correctPieces
    ensures |r.board| == |g.board| + PuzzleLength(size)
    ensures multiset(r.board) == multiset(g.board) + multiset(Iota(PuzzleLength(size)))
    ensures g.board == [] ==> IsPermutation(r.board)
    ensures g.board == [] && size * size < 0x8000_0000 ==> |r.board| == size * size
  {
    var pieces := g.board + Iota(PuzzleLength(size));
    g.(board := Shuffle(pieces, rolls))
  }

  // ---------------------------------------------------------------------------------------
  // findPuzzlePiece and swapPieces
  // ---------------------------------------------------------------------------------------

  /** `findPuzzlePiece`: the first slot whose piece has home index `v`; `None` stands for
      `NoPieceFoundException`. */
  function FindPuzzlePiece(b: Board, v: int): (r: Option<nat>)
    ensures r.Some? ==> r.value < |b| && b[r.value] == v
    ensures r.Some? ==> forall m | 0 <= m < r.value :: b[m] != v
    ensures r.None? <==> v !in b
  {
    var r := FindFirst(b, v);
    assert r.Some? ==> forall m | 0 <= m < r.value :: b[..r.value][m] == b[m];
    r
  }

  /** `swapPieces` with operands that are not cells of the board (a swap message, or the
      selected piece of star power): both lookups happen before any write, the slot holding
      `a` receives `c` and the slot holding `c` receives `a`. A failed lookup is logged and
      leaves the board untouched. */
  function SwapPieces(b: Board, a: int, c: int): (r: Board)
    ensures |r| == |b|
    ensures multiset(r) == multiset(b)
    ensures a !in b || c !in b ==> r == b
    ensures a in b && c in b ==>
      var p := FindPuzzlePiece(b, a).value;
      var q := FindPuzzlePiece(b, c).value;
      r[p] == c && r[q] == a && forall k | 0 <= k < |b| && k != p && k != q :: r[k] == b[k]
  {
    match (FindPuzzlePiece(b, a), FindPuzzlePiece(b, c))
    case (Some(p), Some(q)) => b[p := c][q := a]
    case _ => b
  }

  /** On a board without repeated indices a swap exchanges the two values everywhere. */
  lemma SwapExchangesValues(b: Board, a: int, c: int)
    requires Distinct(b) && a in b && c in b
    ensures forall k | 0 <= k < |b| ::
      SwapPieces(b, a, c)[k] == (if b[k] == a then c else if b[k] == c then a else b[k])
  {
    var p := FindPuzzlePiece(b, a).value;
    var q := FindPuzzlePiece(b, c).value;
    FindInDistinct(b, p);
    FindInDistinct(b, q);
  }

  /** A swap keeps a permutation board a permutation. */
  lemma SwapPreservesPermutation(b: Board, a: int, c: int)
    requires IsPermutation(b)
    ensures IsPermutation(SwapPieces(b, a, c))
  {
    PermutationByMultiset(SwapPieces(b, a, c), b);
  }

  /** Swapping the same two values twice restores a board without repeated indices. */
  lemma SwapTwiceRestores(b: Board, a: int, c: int)
    requires Distinct(b)
    ensures SwapPieces(SwapPieces(b, a, c), a, c) == b
  {
    var r := SwapPieces(b, a, c);
    if a in b && c in b {
      DistinctByMultiset(r, b);
      SwapExchangesValues(b, a, c);
      assert a in r && c in r by {
        var p := FindPuzzlePiece(b, a).value;
        var q := FindPuzzlePiece(b, c).value;
        assert r[q] == a && r[p] == c;
      }
      SwapExchangesValues(r, a, c);
    }
  }

  // ---------------------------------------------------------------------------------------
  // isGameWon and the correct-piece count
  // ---------------------------------------------------------------------------------------

  /** The correct slots among the first `k`, in increasing order. */
  function CorrectSlotsIn(b: Board, k: nat): seq<nat>
    requires k <= |b|
  {
    if k == 0 then []
    else CorrectSlotsIn(b, k - 1) + (if b[k - 1] == k - 1 then [k - 1] else [])
  }

  /** The list of correct slots among the first `k` holds exactly the correct slots below
      `k`, each once, in increasing order. */
  lemma {:induction false} CorrectSlotsFacts(b: Board, k: nat)
    requires k <= |b|
    ensures var r := CorrectSlotsIn(b, k);
      && (forall i | 0 <= i < |r| :: r[i] < k && b[r[i]] == r[i])
      && (forall i, j | 0 <= i < j < |r| :: r[i] < r[j])
      && (forall s | 0 <= s < k && b[s] == s :: s in r)
      && Distinct(r)
  {
    if k > 0 {
      CorrectSlotsFacts(b, k - 1);
    }
  }

  /** The slots whose piece is in its home position, in increasing order. */
  function CorrectSlots(b: Board): seq<nat> {
    CorrectSlotsIn(b, |b|)
  }

  /** The first `k` slots hold `k` correct pieces exactly when each of them is correct. */
  lemma {:induction false} CountInIffPrefixSolved(b: Board, k: nat)
    requires k <= |b|
    ensures |CorrectSlotsIn(b, k)| <= k
    ensures |CorrectSlotsIn(b, k)| == k <==> forall m | 0 <= m < k :: b[m] == m
  {
    if k > 0 {
      CountInIffPrefixSolved(b, k - 1);
    }
  }

  /** The board's correct count never exceeds its length and equals it exactly when the
      board is solved. */
  lemma CountIffSolved(b: Board)
    ensures |CorrectSlots(b)| <= |b|
    ensures |CorrectSlots(b)| == |b| <==> Solved(b)
  {
    CountInIffPrefixSolved(b, |b|);
  }

  /** Slot `i` adds one to the correct count exactly when it is correct. */
  lemma CountStep(b: Board, i: nat)
    requires i < |b|
    ensures |CorrectSlotsIn(b, i + 1)| == |CorrectSlotsIn(b, i)| + (if b[i] == i then 1 else 0)
  {
  }

  /** `isGameWon`: scans the board, stores the number of correct slots in the game's cache
      and reports whether every slot is correct (an empty board is won). */
  method IsGameWon(g: Game) returns (g': Game, won: bool)
    ensures g'.board == g.board && g'.immune == g.immune
    ensures g'.correctPieces == |CorrectSlots(g.board)|
    ensures won <==> Solved(g.board)
    ensures won <==> g'.correctPieces == |g.board|
  {
    var b := g.board;
    var result := true;
    var correct := 0;
    var i := 0;
    while i < |b|
      invariant 0 <= i <= |b|
      invariant correct == |CorrectSlotsIn(b, i)| && correct <= i
      invariant result <==> correct == i
    {
      CountStep(b, i);
      if b[i] == i {
        correct := correct + 1;
      } else {
        result := false;
      }
      i := i + 1;
    }
    CountIffSolved(b);
    g' := g.(correctPieces := correct);
    won := result;
  }

  /** Writing `x` into slot `p` changes the correct count only through slot `p`. */
  lemma {:induction false} CountAfterWrite(b: Board, p: nat, x: int, k: nat)
    requires p < |b| && k <= |b|
    ensures |CorrectSlotsIn(b[p := x], k)| ==
      |CorrectSlotsIn(b, k)|
      - (if p < k && b[p] == p then 1 else 0)
      + (if p < k && x == p then 1 else 0)
  {
    if k > 0 {
      CountAfterWrite(b, p, x, k - 1);
    }
  }

  // ---------------------------------------------------------------------------------------
  // Abilities
  // ---------------------------------------------------------------------------------------

  /** `starPower`: swaps the selected piece `v` with the piece currently in slot `v`.
      `None` stands for the `IndexOutOfBoundsException` of `puzzleBoard.get(v)`. */
  function StarPower(g: Game, v: int): (r: Option<Game>)
    ensures r.None? <==> !(0 <= v < |g.board|)
    ensures r.Some? ==> r.value.immune == g.immune && r.value.correctPieces == g.correctPieces
    ensures r.Some? ==> multiset(r.value.board) == multiset(g.board) && |r.value.board| == |g.board|
    ensures r.Some? ==> forall k | 0 <= k < |g.board| && g.board[k] != v && g.board[k] != g.board[v] ::
      r.value.board[k] == g.board[k]
  {
    if 0 <= v < |g.board| then Some(g.(board := SwapPieces(g.board, v, g.board[v])))
    else None
  }

  /** On a permutation board star power puts piece `v` home, moves the piece it displaces
      into the slot `v` came from, changes nothing else, and raises the correct count. */
  lemma StarPowerPlacesPiece(g: Game, v: int)
    requires IsPermutation(g.board) && 0 <= v < |g.board|
    ensures StarPower(g, v).Some?
    ensures v in g.board
    ensures var b' := StarPower(g, v).value.board;
      b' == g.board[FindPuzzlePiece(g.board, v).value := g.board[v]][v := v]
    ensures var b' := StarPower(g, v).value.board;
      && b'[v] == v
      && IsPermutation(b')
      && (g.board[v] != v ==> |CorrectSlots(b')| > |CorrectSlots(g.board)|)
  {
    var b := g.board;
    var w := b[v];
    PermutationFacts(b);
    SwapPreservesPermutation(b, v, w);
    var p := FindPuzzlePiece(b, v).value;
    FindInDistinct(b, p);
    FindInDistinct(b, v);
    if w != v {
      var b1 := b[p := w];
      CountAfterWrite(b, p, w, |b|);
      CountAfterWrite(b1, v, v, |b|);
      assert b1[v := v] == SwapPieces(b, v, w);
    }
  }

  /** `troubleFlipper`: reshuffles the whole board unless the game is immune. */
  function TroubleFlipper(g: Game, rolls: seq<nat>): (r: Game)
    ensures g.immune ==> r == g
    ensures r.immune == g.immune && r.correctPieces == g.correctPieces
    ensures multiset(r.board) == multiset(g.board)
    ensures IsPermutation(g.board) ==> IsPermutation(r.board)
  {
    if g.immune then g
    else
      var r := g.(board := Shuffle(g.board, rolls));
      PermutationByMultiset(r.board, g.board);
      r
  }

  /** The slots whose content differs between two boards. */
  function ChangedSlots(b: Board, r: Board): set<nat> {
    set k: nat | k < |b| && k < |r| && r[k] != b[k]
  }

  /** A set inside a pair has at most two elements. */
  lemma AtMostTwo(s: set<nat>, p: nat, q: nat)
    requires s <= {p, q}
    ensures |s| <= 2
  {
    if p in s && q in s {
      assert s == {p, q};
    } else if p in s {
      assert s == {p};
    } else if q in s {
      assert s == {q};
    } else {
      assert s == {};
    }
  }

  /** `swapPieces` when both operands are cells of the board itself, as `greenShell` passes
      them: after the first write (slot of `b[s1]` receives `b[s2]`), the second write reads
      cell `s1` again and so may see the value just written. */
  function AliasedSwap(b: Board, s1: nat, s2: nat): (r: Board)
    requires s1 < |b| && s2 < |b|
    ensures |r| == |b|
    ensures ChangedSlots(b, r) <= {FindFirst(b, b[s1]).value, FindFirst(b, b[s2]).value}
  {
    var p := FindFirst(b, b[s1]).value;
    var q := FindFirst(b, b[s2]).value;
    var b1 := b[p := b[s2]];
    b1[q := b1[s1]]
  }

  /** On a board without repeated indices the aliased swap copies `b[s2]` into slot `s1` and
      leaves slot `s2` as it was: the value `b[s1]` disappears. */
  lemma AliasedSwapOnDistinct(b: Board, s1: nat, s2: nat)
    requires Distinct(b) && s1 < |b| && s2 < |b| && s1 != s2
    ensures var r := AliasedSwap(b, s1, s2);
      && r[s1] == b[s2] && r[s2] == b[s2]
      && forall k | 0 <= k < |b| && k != s1 && k != s2 :: r[k] == b[k]
  {
    FindInDistinct(b, s1);
    FindInDistinct(b, s2);
  }

  /** The shuffled list of correct slots whose first two entries `greenShell` picks. */
  function GreenShellPicks(b: Board, rolls: seq<nat>): (r: seq<nat>)
    ensures multiset(r) == multiset(CorrectSlots(b))
    ensures forall i | 0 <= i < |r| :: r[i] < |b| && b[r[i]] == r[i]
    ensures Distinct(r)
  {
    var r := Shuffle(CorrectSlots(b), rolls);
    PicksAreCorrectSlots(b, r);
    r
  }

  /** Any reordering of the correct slots lists distinct correct slots. */
  lemma PicksAreCorrectSlots(b: Board, r: seq<nat>)
    requires multiset(r) == multiset(CorrectSlots(b))
    ensures forall i | 0 <= i < |r| :: r[i] < |b| && b[r[i]] == r[i]
    ensures Distinct(r)
  {
    var cs := CorrectSlots(b);
    CorrectSlotsFacts(b, |b|);
    forall i | 0 <= i < |r|
      ensures r[i] < |b| && b[r[i]] == r[i]
    {
      assert r[i] in multiset(r);
      assert r[i] in cs;
    }
    DistinctByMultiset(r, cs);
  }

  /** `greenShell` as written: unless immune, shuffles the list of correct cells and, when it
      holds at least two, passes the first two board cells themselves to `swapPieces`. At
      most two slots change; the cached count is not refreshed. */
  function GreenShell(g: Game, rolls: seq<nat>): (r: Game)
    ensures r.immune == g.immune && r.correctPieces == g.correctPieces
    ensures |r.board| == |g.board|
    ensures g.immune || |CorrectSlots(g.board)| < 2 ==> r == g
    ensures |ChangedSlots(g.board, r.board)| <= 2
  {
    if g.immune then g
    else
      var picks := GreenShellPicks(g.board, rolls);
      if |picks| >= 2 then
        var b' := AliasedSwap(g.board, picks[0], picks[1]);
        AtMostTwo(ChangedSlots(g.board, b'),
                  FindFirst(g.board, g.board[picks[0]]).value,
                  FindFirst(g.board, g.board[picks[1]]).value);
        g.(board := b')
      else g
  }

  /** On a permutation board with two correct slots, `greenShell` as written moves the
      second pick's index into the first pick's slot and leaves the second slot correct: the
      board is no longer a permutation, so no multiset-preserving move can ever solve it. */
  lemma GreenShellBreaksPermutation(g: Game, rolls: seq<nat>)
    requires IsPermutation(g.board) && !g.immune && |CorrectSlots(g.board)| >= 2
    ensures var picks := GreenShellPicks(g.board, rolls);
      var b' := GreenShell(g, rolls).board;
      && b'[picks[0]] == picks[1] != picks[0]
      && b'[picks[1]] == picks[1]
      && !IsPermutation(b')
      && forall x: Board | multiset(x) == multiset(b') :: !Solved(x)
  {
    var b := g.board;
    var picks := GreenShellPicks(b, rolls);
    PermutationFacts(b);
    AliasedSwapOnDistinct(b, picks[0], picks[1]);
    var b' := GreenShell(g, rolls).board;
    assert b'[picks[0]] == b'[picks[1]];
    if IsPermutation(b') {
      PermutationFacts(b');
      assert false;
    }
    forall x: Board | multiset(x) == multiset(b')
      ensures !Solved(x)
    {
      if Solved(x) {
        SolvedIsPermutation(x);
        PermutationByMultiset(x, b');
      }
    }
  }

  /** The correct slots of the sample board [0, 1, 3, 2] are 0 and 1. */
  lemma SampleCorrectSlots()
    ensures CorrectSlots([0, 1, 3, 2]) == [0, 1]
  {
    var b: Board := [0, 1, 3, 2];
    assert CorrectSlotsIn(b, 0) == [];
    assert CorrectSlotsIn(b, 1) == [0];
    assert CorrectSlotsIn(b, 2) == [0, 1];
    assert CorrectSlotsIn(b, 3) == [0, 1];
    assert CorrectSlotsIn(b, 4) == [0, 1];
  }

  /** With roll 1 the shuffle of a two-element list keeps its order. */
  lemma SampleShuffle()
    ensures Shuffle<nat>([0, 1], [1]) == [0, 1]
  {
    var picks: seq<nat> := [0, 1];
    assert Roll([1], 0, 2) == 1;
    assert SwapAt(picks, 1, 1) == picks;
    assert ShuffleFrom(picks, [1], 1) == picks;
  }

  /** The pick order for the sample board and rolls [1]. */
  lemma SamplePicks()
    ensures GreenShellPicks([0, 1, 3, 2], [1]) == [0, 1]
  {
    SampleCorrectSlots();
    SampleShuffle();
  }

  /** A concrete board on which `greenShell` as written duplicates index 1 and loses index 0. */
  lemma GreenShellCounterexample()
    ensures GreenShell(Game([0, 1, 3, 2], false, 2), [1]).board == [1, 1, 3, 2]
  {
    var b: Board := [0, 1, 3, 2];
    SamplePicks();
    FindInDistinct(b, 0);
    FindInDistinct(b, 1);
    assert AliasedSwap(b, 0, 1) == [1, 1, 3, 2];
  }

  /** On the same board the intended exchange yields [1, 0, 3, 2]. */
  lemma GreenShellIntendedSample()
    ensures GreenShellIntended(Game([0, 1, 3, 2], false, 2), [1]).board == [1, 0, 3, 2]
  {
    var b: Board := [0, 1, 3, 2];
    SamplePicks();
    FindInDistinct(b, 0);
    FindInDistinct(b, 1);
    assert SwapPieces(b, 0, 1) == [1, 0, 3, 2];
  }

  /** `greenShell` as evidently intended: the two picked correct pieces exchange places. */
  function GreenShellIntended(g: Game, rolls: seq<nat>): (r: Game)
    ensures r.immune == g.immune && r.correctPieces == g.correctPieces
    ensures multiset(r.board) == multiset(g.board)
    ensures g.immune || |CorrectSlots(g.board)| < 2 ==> r == g
  {
    if g.immune then g
    else
      var picks := GreenShellPicks(g.board, rolls);
      if |picks| >= 2 then g.(board := SwapPieces(g.board, picks[0], picks[1])) else g
  }

  /** On a permutation board the intended green shell makes both picked slots incorrect,
      changes nothing else and keeps the board a permutation. */
  lemma GreenShellIntendedSwapsPicks(g: Game, rolls: seq<nat>)
    requires IsPermutation(g.board) && !g.immune && |CorrectSlots(g.board)| >= 2
    ensures var picks := GreenShellPicks(g.board, rolls);
      var b' := GreenShellIntended(g, rolls).board;
      && b'[picks[0]] == picks[1] && b'[picks[1]] == picks[0]
      && b'[picks[0]] != picks[0] && b'[picks[1]] != picks[1]
      && (forall k | 0 <= k < |b'| && k != picks[0] && k != picks[1] :: b'[k] == g.board[k])
      && IsPermutation(b')
  {
    var b := g.board;
    var picks := GreenShellPicks(b, rolls);
    PermutationFacts(b);
    FindInDistinct(b, picks[0]);
    FindInDistinct(b, picks[1]);
    SwapPreservesPermutation(b, picks[0], picks[1]);
  }
}

=== FILE: countdown.dfy ===
/** The character-selection countdown (Tournament.java, the task `prepareTeams` schedules
    every 2 seconds). Each run of the task is one call of `Step`; the timer itself, its
    period and the forced character picks it publishes are left out, and the pick publish
    appears only as whether it failed. */
module Countdown {

  /** The task's state: `waitCounter`, `resetWaitCounter`, and whether the task is still
      scheduled (not cancelled). */
  datatype Timer = Timer(waitCounter: int, resetWaitCounter: bool, live: bool)

  /** The state `prepareTeams` sets up before scheduling the task. */
  const Initial: Timer := Timer(10, false, true)

  /** What one run of the task sees: the tournament flag, whether every active game reports
      its characters ready, and whether publishing the forced picks failed. */
  datatype Input = Input(tournamentStarted: bool, allGamesReady: bool, publishFails: bool)

  /** The task state after a run and whether the run called `startGames`. */
  datatype Tick = Tick(next: Timer, startGames: bool)

  /** One run of the countdown task. */
  function Step(c: Timer, i: Input): (r: Tick)
    ensures !c.live ==> r == Tick(c, false)
    ensures c.live && !i.tournamentStarted ==> r == Tick(c.(live := false), false)
    ensures r.startGames <==> c.live && i.tournamentStarted && c.waitCounter > 1 && i.allGamesReady
    ensures r.startGames ==> !r.next.live && r.next.waitCounter == c.waitCounter - 1
    ensures c.live && i.tournamentStarted && c.waitCounter > 1 && !i.allGamesReady ==>
      r.next == c.(waitCounter := c.waitCounter - 1)
    ensures c.live && i.tournamentStarted && c.waitCounter <= 1 && !c.resetWaitCounter && !i.publishFails ==>
      r.next == Timer(5, true, true)
    ensures c.live && i.tournamentStarted && c.waitCounter <= 1 && (c.resetWaitCounter || i.publishFails) ==>
      !r.next.live && !r.startGames
  {
    if !c.live then Tick(c, false)
    else if !i.tournamentStarted then Tick(c.(live := false), false)
    else
      var w := c.waitCounter - 1;
      if w > 0 then
        if i.allGamesReady then Tick(c.(waitCounter := w, live := false), true)
        else Tick(c.(waitCounter := w), false)
      else if i.publishFails then Tick(Timer(w, c.resetWaitCounter, false), false)
      else Tick(Timer(5, true, !c.resetWaitCounter), false)
  }

  /** A scheduled task always has a positive counter when it runs. */
  predicate WellFormed(c: Timer) {
    c.live ==> c.waitCounter >= 1
  }

  /** How many more runs a task can have: the counter, plus the 5-run grace period when it
      has not been granted yet. */
  function Budget(c: Timer): nat
    requires WellFormed(c)
  {
    if !c.live then 0 else c.waitCounter + (if c.resetWaitCounter then 0 else 5)
  }

  /** Every run of a scheduled task uses up at least one unit of its budget. */
  lemma StepSpendsBudget(c: Timer, i: Input)
    requires WellFormed(c) && c.live
    ensures WellFormed(Step(c, i).next)
    ensures Budget(Step(c, i).next) < Budget(c)
  {
  }

  /** The outcome of a sequence of runs: the final state, how many runs found the task
      still scheduled, and whether any of them started the games. */
  datatype Outcome = Outcome(final: Timer, liveRuns: nat, started: bool)

  function Run(c: Timer, inputs: seq<Input>): Outcome
    decreases |inputs|
  {
    if |inputs| == 0 then Outcome(c, 0, false)
    else
      var t := Step(c, inputs[0]);
      var rest := Run(t.next, inputs[1..]);
      Outcome(rest.final, rest.liveRuns + (if c.live then 1 else 0), rest.started || t.startGames)
  }

  /** A task runs at most as often as its budget allows, whatever it observes. */
  lemma {:induction false} RunsWithinBudget(c: Timer, inputs: seq<Input>)
    requires WellFormed(c)
    ensures Run(c, inputs).liveRuns <= Budget(c)
    decreases |inputs|
  {
    if |inputs| > 0 {
      var t := Step(c, inputs[0]);
      if c.live {
        StepSpendsBudget(c, inputs[0]);
      }
      RunsWithinBudget(t.next, inputs[1..]);
    }
  }

  /** The countdown runs at most 10 + 5 times before it cancels itself. */
  lemma AtMostFifteenRuns(inputs: seq<Input>)
    ensures Run(Initial, inputs).liveRuns <= 15
  {
    RunsWithinBudget(Initial, inputs);
  }

  /** A run of the tournament in which nobody is ready and every publish succeeds. */
  const Idle: Input := Input(true, false, false)

  function IdleRuns(n: nat): (r: seq<Input>)
    ensures |r| == n && forall k | 0 <= k < n :: r[k] == Idle
  {
    seq(n, _ => Idle)
  }

  lemma {:induction false} RunAppend(c: Timer, a: seq<Input>, b: seq<Input>)
    ensures Run(c, a + b) ==
      var ra := Run(c, a);
      var rb := Run(ra.final, b);
      Outcome(rb.final, ra.liveRuns + rb.liveRuns, ra.started || rb.started)
    decreases |a|
  {
    if |a| > 0 {
      assert (a + b)[0] == a[0];
      assert (a + b)[1..] == a[1..] + b;
      RunAppend(Step(c, a[0]).next, a[1..], b);
    } else {
      assert a + b == b;
    }
  }

  /** `w` idle runs use up a counter of `w`: the first exhaustion grants the 5-run grace
      period, the second cancels the task; no idle run starts the games. */
  lemma {:induction false} IdleExhausts(w: int, reset: bool)
    requires w >= 1
    ensures Run(Timer(w, reset, true), IdleRuns(w)) ==
      Outcome(Timer(5, true, !reset), w, false)
    decreases w
  {
    var c := Timer(w, reset, true);
    var ins := IdleRuns(w);
    if w > 1 {
      assert ins[1..] == IdleRuns(w - 1);
      IdleExhausts(w - 1, reset);
    } else {
      assert ins[1..] == [];
    }
  }

  /** With nobody ready, the countdown runs exactly fifteen times, then is cancelled without
      starting the games. */
  lemma IdleCountdownLastsFifteenRuns()
    ensures Run(Initial, IdleRuns(15)) == Outcome(Timer(5, true, false), 15, false)
  {
    assert IdleRuns(15) == IdleRuns(10) + IdleRuns(5);
    RunAppend(Initial, IdleRuns(10), IdleRuns(5));
    IdleExhausts(10, false);
    IdleExhausts(5, true);
  }
}

=== FILE: options.dfy ===
/** The optional value used wherever the Java code returns null or throws a lookup exception. */
module Options {

  /** `None` stands for a missing value: a null reference, or a lookup that threw. */
  datatype Option<+T> = None | Some(value: T)
}

=== FILE: players.dfy ===
/** Players as the tournament sees them: identity, display name, team and move counters. */
module Players {

  import opened Options
  import opened Sequences

  /** The messaging client id; unique in the roster while the client is connected. */
  type ClientId = string

  /** A team's identity. The Team class that generates it is not part of this model; a team
      is identified by its position in the order teams were formed. */
  type TeamId = nat

  /** A player: `team` is `None` until team formation assigns one. */
  datatype Player = Player(
    clientId: ClientId,
    gamerTag: string,
    team: Option<TeamId>,
    rightMoves: int,
    wrongMoves: int)

  /** The client ids of `ps`, in order. */
  function Ids(ps: seq<Player>): seq<ClientId> {
    Map(ps, (p: Player) => p.clientId)
  }

  /** The ids of a concatenation are the concatenated ids. */
  lemma IdsAppend(a: seq<Player>, b: seq<Player>)
    ensures Ids(a + b) == Ids(a) + Ids(b)
  {
  }

  /** A reordering of a roster without repeated client ids has none either. */
  lemma DistinctIdsByMultiset(a: seq<Player>, b: seq<Player>)
    requires multiset(a) == multiset(b) && Distinct(Ids(b))
    ensures Distinct(Ids(a))
  {
    DistinctByMultiset(a, b);
    forall i, j | 0 <= i < j < |a|
      ensures Ids(a)[i] != Ids(a)[j]
    {
      assert a[i] in multiset(b) && a[j] in multiset(b);
      var i' :| 0 <= i' < |b| && b[i'] == a[i];
      var j' :| 0 <= j' < |b| && b[j'] == a[j];
      assert Ids(b)[i'] == a[i].clientId && Ids(b)[j'] == a[j].clientId;
    }
  }

  /** A player's ranking score: right moves minus wrong moves. */
  function Score(p: Player): int {
    p.rightMoves - p.wrongMoves
  }

  /** `list.remove(player)` for the player with client id `id`: drops its first occurrence. */
  function RemoveClient(ps: seq<Player>, id: ClientId): (r: seq<Player>)
    ensures forall p | p in r :: p in ps
    ensures id !in Ids(ps) ==> r == ps
    ensures Distinct(Ids(ps)) ==> id !in Ids(r) && Distinct(Ids(r))
    ensures Distinct(Ids(ps)) ==> forall p | p in ps && p.clientId != id :: p in r
    ensures id in Ids(ps) ==> exists i | 0 <= i < |ps| && ps[i].clientId == id ::
      id !in Ids(ps[..i]) && r == ps[..i] + ps[i + 1..]
  {
    match FindFirst(Ids(ps), id)
    case None => ps
    case Some(i) =>
      var r := ps[..i] + ps[i + 1..];
      RemovedIds(ps, i);
      assert Ids(ps[..i]) == Ids(ps)[..i];
      r
  }

  lemma RemovedIds(ps: seq<Player>, i: nat)
    requires i < |ps|
    ensures var r := ps[..i] + ps[i + 1..];
      && (Distinct(Ids(ps)) ==> ps[i].clientId !in Ids(r) && Distinct(Ids(r)))
      && (forall p | p in ps && p.clientId != ps[i].clientId :: p in r)
  {
    var r := ps[..i] + ps[i + 1..];
    var ids := Ids(ps);
    RemovedKeepsOthers(ps, i);
    assert Ids(r) == ids[..i] + ids[i + 1..];
    if Distinct(ids) {
      DistinctWithout(ids, i);
    }
  }

  lemma RemovedKeepsOthers(ps: seq<Player>, i: nat)
    requires i < |ps|
    ensures forall p | p in ps && p.clientId != ps[i].clientId :: p in ps[..i] + ps[i + 1..]
  {
    var r := ps[..i] + ps[i + 1..];
    forall p | p in ps && p.clientId != ps[i].clientId
      ensures p in r
    {
      var j :| 0 <= j < |ps| && ps[j] == p;
      if j < i {
        assert r[j] == p;
      } else {
        assert r[j - 1] == p;
      }
    }
  }
}

=== FILE: puzzle_message.dfy ===
/** The text form of a board update (messages/UpdatePuzzleMessage.java, `toString`):
    "Puzzle: [" + the pieces' home indices in decimal, joined by commas + "]". A reader for
    that text is the printer's partner: printing and reading back returns the board. */
module PuzzleMessage {

  import opened Options
  import opened Sequences

  const Prefix: string := "Puzzle: ["
  const Suffix: string := "]"

  predicate IsDigit(c: char) {
    '0' <= c <= '9'
  }

  /** The decimal digit of `d`. */
  function DigitChar(d: nat): (c: char)
    requires d < 10
    ensures IsDigit(c)
  {
    "0123456789"[d]
  }

  /** The value of decimal digit `c`. */
  function DigitValue(c: char): (d: nat)
    requires IsDigit(c)
    ensures d < 10
  {
    (c as int - '0' as int) as nat
  }

  lemma DigitRoundTrip(d: nat)
    requires d < 10
    ensures DigitValue(DigitChar(d)) == d
  {
  }

  /** Decimal text of a natural number, most significant digit first, no leading zeros. */
  function NatToString(n: nat): (s: string)
    decreases n
    ensures |s| >= 1
    ensures forall i | 0 <= i < |s| :: IsDigit(s[i])
  {
    if n < 10 then [DigitChar(n)] else NatToString(n / 10) + [DigitChar(n % 10)]
  }

  /** `Integer.toString`: a minus sign before the magnitude of a negative value. */
  function IntToString(x: int): (s: string)
    ensures |s| >= 1 && ',' !in s
  {
    if x < 0 then "-" + NatToString(-x) else NatToString(x)
  }

  /** `Collectors.joining(sep)`: the parts with one separator between neighbours. */
  function Join(parts: seq<string>, sep: char): string {
    if |parts| == 0 then ""
    else if |parts| == 1 then parts[0]
    else parts[0] + [sep] + Join(parts[1..], sep)
  }

  /** `toString` of an update message whose puzzle is `puzzle` (`None` for a null list). */
  function Render(puzzle: Option<seq<int>>): (s: string)
    ensures |s| >= |Prefix| + |Suffix|
    ensures s[..|Prefix|] == Prefix && s[|s| - 1..] == Suffix
    ensures puzzle.None? || puzzle == Some([]) ==> s == "Puzzle: []"
  {
    var body := match puzzle
      case None => ""
      case Some(b) => Join(Map(b, IntToString), ',');
    Prefix + body + Suffix
  }

  // ---------------------------------------------------------------------------------------
  // The reader
  // ---------------------------------------------------------------------------------------

  /** The value of a string of decimal digits. */
  function ParseNat(s: string): nat
    requires forall i | 0 <= i < |s| :: IsDigit(s[i])
  {
    if |s| == 0 then 0 else 10 * ParseNat(s[..|s| - 1]) + DigitValue(s[|s| - 1])
  }

  predicate AllDigits(s: string) {
    forall i | 0 <= i < |s| :: IsDigit(s[i])
  }

  /** Reads one decimal integer with an optional leading minus sign. */
  function ParseInt(s: string): Option<int> {
    if |s| >= 2 && s[0] == '-' && AllDigits(s[1..]) then Some(-(ParseNat(s[1..]) as int))
    else if |s| >= 1 && AllDigits(s) then Some(ParseNat(s))
    else None
  }

  /** Cuts `s` at every occurrence of `sep`. */
  function Split(s: string, sep: char): (r: seq<string>)
    decreases |s|
    ensures |r| >= 1
  {
    match FindFirst(s, sep)
    case None => [s]
    case Some(i) => [s[..i]] + Split(s[i + 1..], sep)
  }

  /** Reads every comma-separated field as an integer. */
  function ParseAll(fields: seq<string>): Option<seq<int>> {
    if |fields| == 0 then Some([])
    else
      match (ParseInt(fields[0]), ParseAll(fields[1..]))
      case (Some(x), Some(xs)) => Some([x] + xs)
      case _ => None
  }

  /** Reads back the board from the text `Render` produces. */
  function ParseBoard(s: string): Option<seq<int>> {
    if |s| < |Prefix| + |Suffix| || s[..|Prefix|] != Prefix || s[|s| - 1..] != Suffix then None
    else
      var body := s[|Prefix|..|s| - 1];
      if body == "" then Some([]) else ParseAll(Split(body, ','))
  }

  // ---------------------------------------------------------------------------------------
  // Properties
  // ---------------------------------------------------------------------------------------

  lemma {:induction false} NatRoundTrip(n: nat)
    ensures ParseNat(NatToString(n)) == n
    decreases n
  {
    var s := NatToString(n);
    if n >= 10 {
      var front := NatToString(n / 10);
      assert s[..|s| - 1] == front;
      NatRoundTrip(n / 10);
    }
    DigitRoundTrip(n % 10);
  }

  /** Reading the decimal text of an integer gives the integer back. */
  lemma IntRoundTrip(x: int)
    ensures ParseInt(IntToString(x)) == Some(x)
  {
    if x < 0 {
      var n: nat := -x;
      var m := NatToString(n);
      assert IntToString(x) == "-" + m;
      ParseNegative(m);
      NatRoundTrip(n);
    } else {
      var m := NatToString(x);
      assert IntToString(x) == m;
      ParseDigits(m);
      NatRoundTrip(x);
    }
  }

  lemma ParseNegative(m: string)
    requires |m| >= 1 && AllDigits(m)
    ensures ParseInt("-" + m) == Some(-(ParseNat(m) as int))
  {
    assert ("-" + m)[1..] == m;
  }

  lemma ParseDigits(m: string)
    requires |m| >= 1 && AllDigits(m)
    ensures ParseInt(m) == Some(ParseNat(m))
  {
    assert IsDigit(m[0]);
  }

  /** Splitting a join of separator-free parts recovers the parts. */
  lemma {:induction false} SplitJoin(parts: seq<string>, sep: char)
    requires |parts| >= 1
    requires forall i | 0 <= i < |parts| :: sep !in parts[i]
    ensures Split(Join(parts, sep), sep) == parts
    decreases |parts|
  {
    var s := Join(parts, sep);
    if |parts| == 1 {
      assert FindFirst(s, sep).None?;
    } else {
      var rest := Join(parts[1..], sep);
      assert s == parts[0] + [sep] + rest;
      SplitCons(parts[0], rest, sep);
      SplitJoin(parts[1..], sep);
    }
  }

  /** A separator-free field followed by the separator splits off as the first field. */
  lemma SplitCons(head: string, rest: string, sep: char)
    requires sep !in head
    ensures Split(head + [sep] + rest, sep) == [head] + Split(rest, sep)
  {
    var s := head + [sep] + rest;
    assert s[|head|] == sep;
    assert forall m | 0 <= m < |head| :: s[m] == head[m];
    assert FindFirst(s, sep) == Some(|head|);
    assert s[..|head|] == head;
    assert s[|head| + 1..] == rest;
  }

  /** Reading back the decimal texts of a board gives the board. */
  lemma {:induction false} ParseAllRoundTrip(b: seq<int>)
    ensures ParseAll(Map(b, IntToString)) == Some(b)
    decreases |b|
  {
    if |b| > 0 {
      IntRoundTrip(b[0]);
      assert Map(b, IntToString)[1..] == Map(b[1..], IntToString);
      ParseAllRoundTrip(b[1..]);
      assert [b[0]] + b[1..] == b;
    }
  }

  /** The printed text of a non-null board reads back as that board, in board order; a null
      puzzle prints the same text as an empty one. */
  lemma RenderRoundTrip(b: seq<int>)
    ensures ParseBoard(Render(Some(b))) == Some(b)
  {
    var parts := Map(b, IntToString);
    var body := Join(parts, ',');
    var s := Render(Some(b));
    assert s == Prefix + body + Suffix;
    assert s[|Prefix|..|s| - 1] == body;
    if |b| == 0 {
    } else {
      assert |parts[0]| >= 1;
      assert body != "" by { JoinStartsWithFirst(parts, ','); }
      SplitJoin(parts, ',');
      ParseAllRoundTrip(b);
    }
  }

  lemma {:induction false} JoinStartsWithFirst(parts: seq<string>, sep: char)
    requires |parts| >= 1
    ensures |Join(parts, sep)| >= |parts[0]|
    ensures Join(parts, sep)[..|parts[0]|] == parts[0]
  {
    if |parts| > 1 {
      assert Join(parts, sep) == parts[0] + ([sep] + Join(parts[1..], sep));
    }
  }

  lemma {:induction false} JoinEndsWithLast(parts: seq<string>, sep: char)
    requires |parts| >= 1
    ensures |Join(parts, sep)| >= |parts[|parts| - 1]|
    ensures Join(parts, sep)[|Join(parts, sep)| - |parts[|parts| - 1]|..] == parts[|parts| - 1]
    decreases |parts|
  {
    if |parts| > 1 {
      var tail := Join(parts[1..], sep);
      JoinEndsWithLast(parts[1..], sep);
      assert Join(parts, sep) == (parts[0] + [sep]) + tail;
    }
  }

  /** Joining `n` separator-free parts uses exactly `n - 1` separators. */
  lemma {:induction false} JoinSeparatorCount(parts: seq<string>, sep: char)
    requires |parts| >= 1
    requires forall i | 0 <= i < |parts| :: sep !in parts[i]
    ensures multiset(Join(parts, sep))[sep] == |parts| - 1
    decreases |parts|
  {
    if |parts| > 1 {
      JoinSeparatorCount(parts[1..], sep);
      assert multiset(parts[0])[sep] == 0;
    } else {
      assert multiset(parts[0])[sep] == 0;
    }
  }

  /** A board of length `n >= 1` prints with exactly `n - 1` commas. */
  lemma RenderCommaCount(b: seq<int>)
    requires |b| >= 1
    ensures multiset(Render(Some(b)))[','] == |b| - 1
  {
    var parts := Map(b, IntToString);
    var body := Join(parts, ',');
    JoinSeparatorCount(parts, ',');
    assert Render(Some(b)) == Prefix + body + Suffix;
    FrameHasNoComma();
    assert multiset(Prefix + body + Suffix) == multiset(Prefix) + multiset(body) + multiset(Suffix);
  }

  /** The fixed text around the body holds no comma. */
  lemma FrameHasNoComma()
    ensures multiset(Prefix)[','] == 0 && multiset(Suffix)[','] == 0
  {
    assert forall i | 0 <= i < |Prefix| :: Prefix[i] != ',';
    assert ',' !in multiset(Prefix) && ',' !in multiset(Suffix);
  }

  /** The body of a non-empty board neither starts nor ends with a comma. */
  lemma RenderNoEdgeCommas(b: seq<int>)
    requires |b| >= 1
    ensures var s := Render(Some(b));
      s[|Prefix|] != ',' && s[|s| - 2] != ','
  {
    var parts := Map(b, IntToString);
    var body := Join(parts, ',');
    var s := Render(Some(b));
    assert s == Prefix + body + Suffix;
    JoinStartsWithFirst(parts, ',');
    JoinEndsWithLast(parts, ',');
    assert s[|Prefix|] == body[0] == parts[0][0];
    var last := parts[|parts| - 1];
    assert s[|s| - 2] == body[|body| - 1];
    assert body[|body| - 1] == body[|body| - |last|..][|last| - 1] == last[|last| - 1];
  }
}

=== FILE: ranking.dfy ===
/** The two ranking orders of the tournament (Tournament.java, the sort calls in the
    periodic score tasks). Both are `List.sort`, a stable sort, with a comparator that puts
    the higher key first; ties keep their previous relative order. */
module Ranking {

  import opened Sequences
  import opened Players

  /** A sort key, compared lexicographically, higher first. */
  datatype Key = Key(primary: int, secondary: int)

  /** `x` may stand before `y`: the comparator returns zero or a negative number. */
  predicate AtLeast(x: Key, y: Key) {
    x.primary > y.primary || (x.primary == y.primary && x.secondary >= y.secondary)
  }

  /** Every element ranks at least as high as every later one. */
  predicate SortedBy<T>(s: seq<T>, key: T -> Key) {
    forall i, j | 0 <= i < j < |s| :: AtLeast(key(s[i]), key(s[j]))
  }

  /** The elements whose key is `k`, in order. */
  function WithKey<T>(s: seq<T>, key: T -> Key, k: Key): seq<T> {
    Filter(s, x => key(x) == k)
  }

  /** Places `x` after every element of `s` that ranks at least as high. */
  function Insert<T>(x: T, s: seq<T>, key: T -> Key): seq<T> {
    if |s| == 0 then [x]
    else if AtLeast(key(s[0]), key(x)) then [s[0]] + Insert(x, s[1..], key)
    else [x] + s
  }

  /** Filtering a sequence in which no element has key `k` leaves nothing. */
  lemma {:induction false} WithKeyNone<T>(s: seq<T>, key: T -> Key, k: Key)
    requires forall i | 0 <= i < |s| :: key(s[i]) != k
    ensures WithKey(s, key, k) == []
  {
    if |s| > 0 {
      WithKeyNone(s[..|s| - 1], key, k);
    }
  }

  lemma WithKeyCons<T>(x: T, s: seq<T>, key: T -> Key, k: Key)
    ensures WithKey([x] + s, key, k) == (if key(x) == k then [x] else []) + WithKey(s, key, k)
  {
    FilterAppend([x], s, y => key(y) == k);
    assert WithKey([x], key, k) == Filter([], y => key(y) == k) + (if key(x) == k then [x] else []);
  }

  /** Inserting adds exactly `x`. */
  lemma {:induction false} InsertMultiset<T>(x: T, s: seq<T>, key: T -> Key)
    ensures multiset(Insert(x, s, key)) == multiset(s) + multiset{x}
    decreases |s|
  {
    if |s| > 0 && AtLeast(key(s[0]), key(x)) {
      InsertMultiset(x, s[1..], key);
      assert s == [s[0]] + s[1..];
    }
  }

  /** Inserting an element ranked at most `b` among elements ranked at most `b` gives a
      sequence ranked at most `b`. */
  lemma {:induction false} InsertBounded<T>(x: T, s: seq<T>, key: T -> Key, b: Key)
    requires AtLeast(b, key(x))
    requires forall i | 0 <= i < |s| :: AtLeast(b, key(s[i]))
    ensures forall j | 0 <= j < |Insert(x, s, key)| :: AtLeast(b, key(Insert(x, s, key)[j]))
    decreases |s|
  {
    var r := Insert(x, s, key);
    if |s| > 0 && AtLeast(key(s[0]), key(x)) {
      var r' := Insert(x, s[1..], key);
      InsertBounded(x, s[1..], key, b);
      assert r == [s[0]] + r';
      forall j | 0 < j < |r|
        ensures AtLeast(b, key(r[j]))
      {
        assert r[j] == r'[j - 1];
      }
    } else if |s| > 0 {
      assert r == [x] + s;
      forall j | 0 < j < |r|
        ensures AtLeast(b, key(r[j]))
      {
        assert r[j] == s[j - 1];
      }
    }
  }

  /** Inserting into a sorted sequence keeps it sorted. */
  lemma {:induction false} InsertSorted<T>(x: T, s: seq<T>, key: T -> Key)
    requires SortedBy(s, key)
    ensures SortedBy(Insert(x, s, key), key)
    decreases |s|
  {
    var r := Insert(x, s, key);
    if |s| > 0 && AtLeast(key(s[0]), key(x)) {
      var tail := s[1..];
      var r' := Insert(x, tail, key);
      InsertSorted(x, tail, key);
      assert forall i | 0 <= i < |tail| :: tail[i] == s[i + 1];
      InsertBounded(x, tail, key, key(s[0]));
      assert r == [s[0]] + r';
      forall i, j | 0 <= i < j < |r|
        ensures AtLeast(key(r[i]), key(r[j]))
      {
        if i == 0 {
          assert r[j] == r'[j - 1];
        } else {
          assert r[i] == r'[i - 1] && r[j] == r'[j - 1];
        }
      }
    }
  }

  /** Inserting into a sorted sequence puts `x` after every element with the same key. */
  lemma {:induction false} InsertStable<T>(x: T, s: seq<T>, key: T -> Key, k: Key)
    requires SortedBy(s, key)
    ensures WithKey(Insert(x, s, key), key, k) == WithKey(s, key, k) + (if key(x) == k then [x] else [])
    decreases |s|
  {
    var r := Insert(x, s, key);
    if |s| == 0 {
      WithKeyCons(x, [], key, k);
      assert [x] + [] == [x];
    } else if AtLeast(key(s[0]), key(x)) {
      var tail := s[1..];
      var r' := Insert(x, tail, key);
      InsertStable(x, tail, key, k);
      assert s == [s[0]] + tail;
      assert r == [s[0]] + r';
      WithKeyCons(s[0], r', key, k);
      WithKeyCons(s[0], tail, key, k);
    } else {
      assert r == [x] + s;
      WithKeyCons(x, s, key, k);
      if key(x) == k {
        WithKeyNone(s, key, k);
      }
    }
  }

  /** Insertion sort that visits the elements in their current order: a stable sort in
      which higher keys come first. */
  function StableSort<T>(s: seq<T>, key: T -> Key): (r: seq<T>)
    ensures SortedBy(r, key)
    ensures multiset(r) == multiset(s)
    ensures forall k :: WithKey(r, key, k) == WithKey(s, key, k)
  {
    if |s| == 0 then []
    else
      var front := s[..|s| - 1];
      var last := s[|s| - 1];
      var sortedFront := StableSort(front, key);
      InsertMultiset(last, sortedFront, key);
      InsertSorted(last, sortedFront, key);
      assert s == front + [last];
      assert forall k :: WithKey(s, key, k) == WithKey(front, key, k) + (if key(last) == k then [last] else []);
      assert forall k ::
               WithKey(Insert(last, sortedFront, key), key, k)
               == WithKey(sortedFront, key, k) + (if key(last) == k then [last] else []) by {
        forall k {
          InsertStable(last, sortedFront, key, k);
        }
      }
      Insert(last, sortedFront, key)
  }

  /** The key of the player comparator: score `rightMoves - wrongMoves`. */
  function PlayerKey(p: Player): Key {
    Key(Score(p), 0)
  }

  /** The player ranking after `playerRankings.sort`: a permutation of the previous ranking,
      by score descending, players with equal scores in their previous relative order. */
  function RankPlayers(ps: seq<Player>): (r: seq<Player>)
    ensures multiset(r) == multiset(ps)
    ensures forall i, j | 0 <= i < j < |r| :: Score(r[i]) >= Score(r[j])
    ensures forall k :: WithKey(r, PlayerKey, k) == WithKey(ps, PlayerKey, k)
  {
    StableSort(ps, PlayerKey)
  }

  /** The key of the team comparator: completed games, then the current game's cached count
      of correct pieces. */
  function TeamKey(completed: TeamId -> int, correct: TeamId -> int): TeamId -> Key {
    (id: TeamId) => Key(completed(id), correct(id))
  }

  /** The team ranking after `teamRankings.sort`: a permutation of the previous ranking,
      more completed games first, then more correct pieces in the current game; teams equal
      on both keep their previous relative order. */
  function RankTeams(ids: seq<TeamId>, completed: TeamId -> int, correct: TeamId -> int): (r: seq<TeamId>)
    ensures multiset(r) == multiset(ids)
    ensures forall i, j | 0 <= i < j < |r| ::
      completed(r[i]) > completed(r[j])
      || (completed(r[i]) == completed(r[j]) && correct(r[i]) >= correct(r[j]))
    ensures forall k :: WithKey(r, TeamKey(completed, correct), k) == WithKey(ids, TeamKey(completed, correct), k)
  {
    StableSort(ids, TeamKey(completed, correct))
  }
}

=== FILE: sequences.dfy ===
/** Sequence facts shared by the board, the ranking and the team-formation models. */
module Sequences {

  import opened Options

  /** No value occurs at two different positions of `s`. */
  predicate Distinct<T(==)>(s: seq<T>) {
    forall i, j | 0 <= i < j < |s| :: s[i] != s[j]
  }

  /** The sequence 0, 1, ..., n - 1. */
  function Iota(n: nat): (r: seq<int>)
    ensures |r| == n
    ensures forall i | 0 <= i < n :: r[i] == i
  {
    seq(n, i => i)
  }

  /** The elements of `s` that satisfy `keep`, in their original order. */
  function Filter<T>(s: seq<T>, keep: T -> bool): (r: seq<T>)
    ensures |r| <= |s|
    ensures forall x | x in r :: x in s && keep(x)
  {
    if |s| == 0 then []
    else Filter(s[..|s| - 1], keep) + (if keep(s[|s| - 1]) then [s[|s| - 1]] else [])
  }

  /** The concatenation of all sequences in `ss`, in order. */
  function Flatten<T>(ss: seq<seq<T>>): seq<T> {
    if |ss| == 0 then [] else ss[0] + Flatten(ss[1..])
  }

  /** Filters every sequence of `ss`. */
  function FilterEach<T>(ss: seq<seq<T>>, keep: T -> bool): (r: seq<seq<T>>)
    ensures |r| == |ss|
    ensures forall i | 0 <= i < |ss| :: r[i] == Filter(ss[i], keep)
  {
    if |ss| == 0 then [] else [Filter(ss[0], keep)] + FilterEach(ss[1..], keep)
  }

  /** Applies `f` to every element. */
  function Map<T, U>(s: seq<T>, f: T -> U): (r: seq<U>)
    ensures |r| == |s|
    ensures forall i | 0 <= i < |s| :: r[i] == f(s[i])
  {
    seq(|s|, i requires 0 <= i < |s| => f(s[i]))
  }

  /** Linear search for `x` from position `k` on: the first position holding `x`, if any. */
  function FindFrom<T(==)>(s: seq<T>, x: T, k: nat): (r: Option<nat>)
    requires k <= |s|
    decreases |s| - k
    ensures r.Some? ==> k <= r.value < |s| && s[r.value] == x
    ensures r.Some? ==> forall m | k <= m < r.value :: s[m] != x
    ensures r.None? <==> forall m | k <= m < |s| :: s[m] != x
  {
    if k == |s| then None
    else if s[k] == x then Some(k)
    else FindFrom(s, x, k + 1)
  }

  /** The first position of `s` holding `x`, or `None` when `x` does not occur. */
  function FindFirst<T(==)>(s: seq<T>, x: T): (r: Option<nat>)
    ensures r.Some? ==> r.value < |s| && s[r.value] == x && x !in s[..r.value]
    ensures r.None? <==> x !in s
  {
    var r := FindFrom(s, x, 0);
    assert r.Some? ==> forall m | 0 <= m < r.value :: s[..r.value][m] != x;
    r
  }

  /** A search that succeeds within a prefix finds the same position in the whole. */
  lemma FindFirstInPrefix<T>(s: seq<T>, x: T, n: nat)
    requires n <= |s| && x in s[..n]
    ensures FindFirst(s, x) == FindFirst(s[..n], x)
  {
    var p := FindFirst(s[..n], x).value;
    var q := FindFirst(s, x).value;
    assert s[p] == s[..n][p];
    forall m | 0 <= m < q
      ensures s[m] != x
    {
      assert s[..q][m] == s[m];
    }
    forall m | 0 <= m < p
      ensures s[m] != x
    {
      assert s[..n][..p][m] == s[m];
    }
  }

  /** Exchanges the elements at positions `i` and `j`. */
  function SwapAt<T>(s: seq<T>, i: nat, j: nat): (r: seq<T>)
    requires i < |s| && j < |s|
    ensures |r| == |s| && multiset(r) == multiset(s)
    ensures r[i] == s[j] && r[j] == s[i]
    ensures forall k | 0 <= k < |s| && k != i && k != j :: r[k] == s[k]
  {
    s[i := s[j]][j := s[i]]
  }

  /** The position `Random.nextInt(bound)` returned in step `k` of a shuffle; any roll
      in `[0, bound)` is one of these, and missing rolls count as 0. */
  function Roll(rolls: seq<nat>, k: nat, bound: nat): (r: nat)
    requires bound > 0
    ensures r < bound
  {
    (if k < |rolls| then rolls[k] else 0) % bound
  }

  /** Steps `k` onward of `Collections.shuffle` on a random-access list of length `n`:
      step `k` exchanges position `n - 1 - k` with a random position below `n - k`. */
  function ShuffleFrom<T>(s: seq<T>, rolls: seq<nat>, k: nat): (r: seq<T>)
    requires k < |s| || |s| <= 1
    decreases |s| - k
    ensures |r| == |s|
    ensures multiset(r) == multiset(s)
  {
    if |s| <= 1 || k == |s| - 1 then s
    else
      var i := |s| - 1 - k;
      ShuffleFrom(SwapAt(s, i, Roll(rolls, k, i + 1)), rolls, k + 1)
  }

  /** `Collections.shuffle(s)` with the random source supplied as `rolls`. */
  function Shuffle<T>(s: seq<T>, rolls: seq<nat>): (r: seq<T>)
    ensures |r| == |s|
    ensures multiset(r) == multiset(s)
  {
    ShuffleFrom(s, rolls, 0)
  }

  /** Two positions holding the same value make its multiset count at least two. */
  lemma TwoOccurrences<T>(s: seq<T>, i: nat, j: nat)
    requires i < j < |s| && s[i] == s[j]
    ensures multiset(s)[s[i]] >= 2
  {
    assert s == s[..j] + s[j..];
    assert s[..j][i] == s[i];
    assert s[j..][0] == s[j];
    assert s[i] in multiset(s[..j]);
    assert s[j] in multiset(s[j..]);
  }

  /** In a sequence without repetitions every value is counted at most once. */
  lemma {:induction false} DistinctCountsAtMostOne<T>(s: seq<T>, x: T)
    requires Distinct(s)
    ensures multiset(s)[x] <= 1
  {
    if |s| > 0 {
      var p := s[..|s| - 1];
      var last := s[|s| - 1];
      assert s == p + [last];
      assert Distinct(p);
      DistinctCountsAtMostOne(p, x);
      if x == last {
        assert forall m | 0 <= m < |p| :: p[m] == s[m] && s[m] != last;
        assert last !in p;
      }
    }
  }

  /** Having no repetitions is a property of the multiset alone. */
  lemma DistinctByMultiset<T>(a: seq<T>, b: seq<T>)
    requires multiset(a) == multiset(b) && Distinct(b)
    ensures Distinct(a)
  {
    forall i, j | 0 <= i < j < |a|
      ensures a[i] != a[j]
    {
      if a[i] == a[j] {
        TwoOccurrences(a, i, j);
        DistinctCountsAtMostOne(b, a[i]);
      }
    }
  }

  /** Removing position `i` from a sequence without repetitions removes its value. */
  lemma DistinctWithout<T>(s: seq<T>, i: nat)
    requires i < |s| && Distinct(s)
    ensures s[i] !in s[..i] + s[i + 1..]
    ensures Distinct(s[..i] + s[i + 1..])
  {
    var r := s[..i] + s[i + 1..];
    forall m | 0 <= m < |r|
      ensures r[m] != s[i]
    {
      if m < i {
        assert r[m] == s[m];
      } else {
        assert r[m] == s[m + 1];
      }
    }
    forall a, b | 0 <= a < b < |r|
      ensures r[a] != r[b]
    {
      var a' := if a < i then a else a + 1;
      var b' := if b < i then b else b + 1;
      assert r[a] == s[a'] && r[b] == s[b'];
    }
  }

  /** Filtering distributes over concatenation. */
  lemma {:induction false} FilterAppend<T>(a: seq<T>, b: seq<T>, keep: T -> bool)
    ensures Filter(a + b, keep) == Filter(a, keep) + Filter(b, keep)
    decreases |b|
  {
    if |b| > 0 {
      var b' := b[..|b| - 1];
      assert (a + b)[..|a + b| - 1] == a + b';
      assert (a + b)[|a + b| - 1] == b[|b| - 1];
      FilterAppend(a, b', keep);
    } else {
      assert a + b == a;
    }
  }

  /** Filtering a concatenation filters each piece. */
  lemma {:induction false} FilterFlatten<T>(ss: seq<seq<T>>, keep: T -> bool)
    ensures Filter(Flatten(ss), keep) == Flatten(FilterEach(ss, keep))
    decreases |ss|
  {
    if |ss| > 0 {
      FilterAppend(ss[0], Flatten(ss[1..]), keep);
      FilterFlatten(ss[1..], keep);
      assert FilterEach(ss, keep)[1..] == FilterEach(ss[1..], keep);
    }
  }
}

=== FILE: teams.dfy ===
/** Team formation (Tournament.java, `prepareTeams` and `addTeam`): the roster is cut into
    consecutive chunks of `playersPerTeam`, each chunk becomes a team, and players whose
    subscription fails with a 404 ("client unknown") are dropped from their team, from the
    player ranking and from the roster. Which subscriptions fail is an input. */
module Teams {

  import opened Options
  import opened Sequences
  import opened Players

  /** The chunks the formation loop closes: `k` players at a time in roster order, the last
      one possibly shorter. A size below 1 never matches the size test, so the whole roster
      closes as one chunk at its last player. */
  function Chunks<T>(roster: seq<T>, k: int): (r: seq<seq<T>>)
    decreases |roster|
    ensures Flatten(r) == roster
    ensures forall i | 0 <= i < |r| :: |r[i]| >= 1
    ensures k >= 1 ==> forall i | 0 <= i < |r| :: |r[i]| <= k
    ensures k >= 1 ==> forall i | 0 <= i < |r| - 1 :: |r[i]| == k
    ensures k >= 1 ==> |roster| <= |r| * k
    ensures k >= 1 && |r| >= 1 ==> (|r| - 1) * k < |roster|
    ensures k < 1 && |roster| >= 1 ==> r == [roster]
  {
    if |roster| == 0 then []
    else if k >= 1 && |roster| > k then
      var rest := Chunks(roster[k..], k);
      assert roster == roster[..k] + roster[k..];
      assert (|rest| + 1) * k == |rest| * k + k;
      [roster[..k]] + rest
    else
      [roster]
  }

  /** `player.setTeam(team)` for every member of a chunk. */
  function AssignTeam(chunk: seq<Player>, id: TeamId): (r: seq<Player>)
    ensures |r| == |chunk|
    ensures forall i | 0 <= i < |chunk| :: r[i] == chunk[i].(team := Some(id))
  {
    seq(|chunk|, i requires 0 <= i < |chunk| => chunk[i].(team := Some(id)))
  }

  /** Assigns chunk `i` to team `first + i`. */
  function AssignEach(chunks: seq<seq<Player>>, first: TeamId): (r: seq<seq<Player>>)
    ensures |r| == |chunks|
    ensures forall i | 0 <= i < |chunks| :: r[i] == AssignTeam(chunks[i], first + i)
  {
    if |chunks| == 0 then [] else [AssignTeam(chunks[0], first)] + AssignEach(chunks[1..], first + 1)
  }

  /** The players whose subscriptions succeed. */
  function Reachable(unreachable: set<ClientId>): Player -> bool {
    (p: Player) => p.clientId !in unreachable
  }

  /** The outcome of team formation: the members of the `i`-th team formed, the roster and
      the player ranking. */
  datatype Formation = Formation(teams: seq<seq<Player>>, roster: seq<Player>, rankings: seq<Player>)

  /** The formation loop of `prepareTeams`: one team per chunk; every member of a chunk gets
      the team, is added to the ranking and subscribed; a 404 removes the player from team
      and ranking, and from the roster once all teams exist. */
  function FormTeams(roster: seq<Player>, k: int, unreachable: set<ClientId>, first: TeamId): (f: Formation)
    ensures |f.teams| == |Chunks(roster, k)|
    ensures f.rankings == Flatten(f.teams)
    ensures f.roster == f.rankings
    ensures forall i | 0 <= i < |f.teams| ::
      Ids(f.teams[i]) == Ids(Filter(Chunks(roster, k)[i], Reachable(unreachable)))
    ensures Ids(f.roster) == Ids(Filter(roster, Reachable(unreachable)))
  {
    var chunks := Chunks(roster, k);
    var placed := AssignEach(chunks, first);
    var teams := FilterEach(placed, Reachable(unreachable));
    FormationIds(roster, k, unreachable, first);
    FilterFlatten(placed, Reachable(unreachable));
    Formation(teams, Filter(Flatten(placed), Reachable(unreachable)), Flatten(teams))
  }

  /** `prepareTeams` after its reset: an empty roster forms nothing; otherwise the team count
      it logs divides by `playersPerTeam`, so a size of 0 throws `ArithmeticException`
      (`None`) before any team is formed, and every other size runs the formation loop. */
  function PrepareTeams(roster: seq<Player>, k: int, unreachable: set<ClientId>, first: TeamId)
    : (f: Option<Formation>)
    ensures f.None? <==> |roster| > 0 && k == 0
    ensures f.Some? ==> |f.value.teams| == |Chunks(roster, k)|
    ensures f.Some? ==> Ids(f.value.roster) == Ids(Filter(roster, Reachable(unreachable)))
    ensures f.Some? ==> f.value.rankings == f.value.roster
    ensures f.Some? ==> forall i | 0 <= i < |f.value.teams| ::
      Ids(f.value.teams[i]) == Ids(Filter(Chunks(roster, k)[i], Reachable(unreachable)))
  {
    if |roster| > 0 && k == 0 then None
    else Some(FormTeams(roster, k, unreachable, first))
  }

  /** Each team, and the whole roster, keeps exactly the reachable players of its chunk. */
  lemma FormationIds(roster: seq<Player>, k: int, unreachable: set<ClientId>, first: TeamId)
    ensures var chunks := Chunks(roster, k);
      var placed := AssignEach(chunks, first);
      && (forall i | 0 <= i < |chunks| ::
            Ids(Filter(placed[i], Reachable(unreachable))) == Ids(Filter(chunks[i], Reachable(unreachable))))
      && Ids(Filter(Flatten(placed), Reachable(unreachable))) == Ids(Filter(roster, Reachable(unreachable)))
  {
    var chunks := Chunks(roster, k);
    var placed := AssignEach(chunks, first);
    forall i | 0 <= i < |chunks|
      ensures Ids(Filter(placed[i], Reachable(unreachable))) == Ids(Filter(chunks[i], Reachable(unreachable)))
    {
      IdsOfFiltered(placed[i], chunks[i], unreachable);
    }
    AssignedIds(chunks, first);
    IdsOfFiltered(Flatten(placed), roster, unreachable);
  }

  /** Assigning teams does not change who is in the roster. */
  lemma {:induction false} AssignedIds(chunks: seq<seq<Player>>, first: TeamId)
    ensures Ids(Flatten(AssignEach(chunks, first))) == Ids(Flatten(chunks))
    decreases |chunks|
  {
    if |chunks| > 0 {
      var a := AssignEach(chunks, first);
      AssignedIds(chunks[1..], first + 1);
      assert a[1..] == AssignEach(chunks[1..], first + 1);
      IdsAppend(a[0], Flatten(a[1..]));
      IdsAppend(chunks[0], Flatten(chunks[1..]));
    }
  }

  /** Dropping unreachable players depends only on the client ids. */
  lemma {:induction false} IdsOfFiltered(x: seq<Player>, y: seq<Player>, unreachable: set<ClientId>)
    requires Ids(x) == Ids(y)
    ensures Ids(Filter(x, Reachable(unreachable))) == Ids(Filter(y, Reachable(unreachable)))
    decreases |x|
  {
    if |x| > 0 {
      assert |y| == |Ids(y)| == |Ids(x)| == |x|;
      var x' := x[..|x| - 1];
      var y' := y[..|y| - 1];
      assert Ids(x') == Ids(x)[..|x| - 1];
      assert Ids(y') == Ids(y)[..|y| - 1];
      IdsOfFiltered(x', y', unreachable);
      assert x[|x| - 1].clientId == Ids(x)[|x| - 1] == y[|y| - 1].clientId;
      var fx := Filter(x', Reachable(unreachable));
      var fy := Filter(y', Reachable(unreachable));
      if x[|x| - 1].clientId !in unreachable {
        IdsAppend(fx, [x[|x| - 1]]);
        IdsAppend(fy, [y[|y| - 1]]);
      }
    }
  }

  /** Nobody whose subscription failed stays anywhere, and every member of the `i`-th team
      formed carries that team's id. */
  lemma FormationDropsUnreachable(roster: seq<Player>, k: int, unreachable: set<ClientId>, first: TeamId)
    ensures var f := FormTeams(roster, k, unreachable, first);
      && (forall p | p in f.roster :: p.clientId !in unreachable)
      && (forall i, p | 0 <= i < |f.teams| && p in f.teams[i] ::
            p.clientId !in unreachable && p.team == Some(first + i))
  {
    var f := FormTeams(roster, k, unreachable, first);
    var chunks := Chunks(roster, k);
    var placed := AssignEach(chunks, first);
    forall i, p | 0 <= i < |f.teams| && p in f.teams[i]
      ensures p.clientId !in unreachable && p.team == Some(first + i)
    {
      assert f.teams[i] == Filter(placed[i], Reachable(unreachable));
      assert p in placed[i];
    }
  }

  /** Dropping players keeps the client ids free of repetitions. */
  lemma {:induction false} FilteredIdsDistinct(ps: seq<Player>, keep: Player -> bool)
    requires Distinct(Ids(ps))
    ensures Distinct(Ids(Filter(ps, keep)))
    decreases |ps|
  {
    if |ps| > 0 {
      var front := ps[..|ps| - 1];
      var last := ps[|ps| - 1];
      assert Ids(front) == Ids(ps)[..|ps| - 1];
      FilteredIdsDistinct(front, keep);
      var f := Filter(front, keep);
      if keep(last) {
        IdsAppend(f, [last]);
        forall m | 0 <= m < |f|
          ensures f[m].clientId != last.clientId
        {
          assert f[m] in front;
          var j :| 0 <= j < |front| && front[j] == f[m];
          assert Ids(ps)[j] == f[m].clientId && Ids(ps)[|ps| - 1] == last.clientId;
        }
      }
    }
  }
}

=== FILE: tournament.dfy ===
/** The tournament orchestration (Tournament.java): lifecycle flags, team formation, the
    stop and game-over bookkeeping, joining players, the waiting/teams summary, the
    rank-relative attacks, and the periodic countdown and ranking tasks. Games appear here
    by identity only; their boards are modelled in `Board`. Messaging, timers and logging
    are not modelled: every timer run is an explicit call, and every outcome of the
    messaging layer the code inspects is an input. */
module Tournament {

  import opened Options
  import opened Sequences
  import opened Players
  import Teams
  import Countdown
  import Ranking
  import Board

  /** A game: the team that owns it and its round, the number of games the team had
      completed when the game was created. */
  datatype GameRef = GameRef(team: TeamId, round: nat)

  /** A team: its members, its completed-game counter and its current game. */
  datatype Team = Team(members: seq<Player>, completedGames: nat, game: GameRef)

  /** The tournament's fields. `replacements` holds the games waiting for their cooldown
      task after a win; `nextTeamId` stands for the generator of fresh team ids. */
  datatype State = State(
    players: seq<Player>,
    tournamentStarted: bool,
    gameStarted: bool,
    teams: map<TeamId, Team>,
    activeGames: map<TeamId, GameRef>,
    completedGames: map<TeamId, seq<GameRef>>,
    replacements: map<TeamId, GameRef>,
    teamRankings: seq<TeamId>,
    playerRankings: seq<Player>,
    countdown: Countdown.Timer,
    nextTeamId: TeamId)

  /** A freshly constructed tournament: no players, no teams, no countdown task. */
  const Initial: State :=
    State([], false, false, map[], map[], map[], map[], [], [], Countdown.Timer(10, false, false), 0)

  /** What the code relies on between operations. */
  predicate Valid(t: State) {
    && Distinct(Ids(t.players))
    && Distinct(Ids(t.playerRankings))
    && (t.gameStarted ==> t.tournamentStarted)
    && (t.countdown.live ==> t.tournamentStarted)
    && Countdown.WellFormed(t.countdown)
    && t.activeGames.Keys <= t.teams.Keys
    && t.replacements.Keys <= t.teams.Keys
    && t.completedGames.Keys == t.teams.Keys
    && (forall id | id in t.teams :: t.teams[id].completedGames == |t.completedGames[id]|)
    && Distinct(t.teamRankings)
    && (forall id | id in t.teams :: id in t.teamRankings)
    && (forall i | 0 <= i < |t.teamRankings| :: t.teamRankings[i] in t.teams)
  }

  lemma InitialValid()
    ensures Valid(Initial)
  {
  }

  // ---------------------------------------------------------------------------------------
  // buildTeams
  // ---------------------------------------------------------------------------------------

  /** The ids `first`, `first + 1`, ..., `first + m - 1`. */
  function IdRange(first: TeamId, m: nat): (r: seq<TeamId>)
    ensures |r| == m && forall i | 0 <= i < m :: r[i] == first + i
  {
    seq(m, i => first + i)
  }

  /** The range holds exactly the ids from `first` below `first + m`. */
  lemma IdRangeMembers(first: TeamId, m: nat)
    ensures forall id :: id in IdRange(first, m) <==> first <= id < first + m
  {
    forall id | first <= id < first + m
      ensures id in IdRange(first, m)
    {
      assert IdRange(first, m)[id - first] == id;
    }
  }

  /** The registered teams after formation: team `first + i` has the members of the `i`-th
      team formed, no completed game and a fresh game of round 0. */
  function FreshTeams(members: seq<seq<Player>>, first: TeamId): (r: map<TeamId, Team>)
    ensures forall id :: id in r <==> first <= id < first + |members|
    ensures forall id | id in r :: r[id] == Team(members[id - first], 0, GameRef(id, 0))
  {
    var ids := IdRange(first, |members|);
    IdRangeMembers(first, |members|);
    map id | id in ids :: Team(members[id - first], 0, GameRef(id, 0))
  }

  /** Round-0 games of the teams `first` .. `first + m - 1`. */
  function FreshGames(first: TeamId, m: nat): (r: map<TeamId, GameRef>)
    ensures forall id :: id in r <==> first <= id < first + m
    ensures forall id | id in r :: r[id] == GameRef(id, 0)
  {
    var ids := IdRange(first, m);
    IdRangeMembers(first, m);
    map id | id in ids :: GameRef(id, 0)
  }

  /** Empty histories for the teams `first` .. `first + m - 1`. */
  function FreshHistories(first: TeamId, m: nat): (r: map<TeamId, seq<GameRef>>)
    ensures forall id :: id in r <==> first <= id < first + m
    ensures forall id | id in r :: r[id] == []
  {
    var ids := IdRange(first, m);
    IdRangeMembers(first, m);
    map id | id in ids :: []
  }

  /** `handleTournamentMsg("buildTeams")`: ignored without players or while a tournament is
      running; otherwise starts the tournament and resets it: the teams, games, histories
      and both rankings are cleared and every timer task is cancelled. Then it forms the
      teams (each with a fresh game and an empty history) and schedules a fresh countdown.
      A team size of 0 throws during the reset, leaving the tournament started but empty,
      with no countdown scheduled. */
  function BuildTeams(t: State, playersPerTeam: int, unreachable: set<ClientId>): (r: State)
    ensures |t.players| == 0 || t.tournamentStarted ==> r == t
    ensures |t.players| > 0 && !t.tournamentStarted ==>
      && r.tournamentStarted
      && r.gameStarted == t.gameStarted
      && r.activeGames.Keys == r.teams.Keys
      && r.completedGames.Keys == r.teams.Keys
      && (forall id | id in r.teams :: r.teams[id].completedGames == 0 && r.completedGames[id] == [])
      && r.replacements == map[]
    ensures |t.players| > 0 && !t.tournamentStarted && playersPerTeam == 0 ==>
      && r.teams == map[] && r.teamRankings == [] && r.playerRankings == []
      && !r.countdown.live
      && r.players == t.players
    ensures |t.players| > 0 && !t.tournamentStarted && playersPerTeam != 0 ==>
      && r.countdown == Countdown.Initial
      && |r.teamRankings| == |Teams.Chunks(t.players, playersPerTeam)|
      && Ids(r.players) == Ids(Filter(t.players, Teams.Reachable(unreachable)))
      && r.playerRankings == r.players
  {
    if |t.players| == 0 || t.tournamentStarted then t
    else
      var first := t.nextTeamId;
      match Teams.PrepareTeams(t.players, playersPerTeam, unreachable, first)
      case None =>
        t.(tournamentStarted := true,
           teams := map[],
           activeGames := map[],
           completedGames := map[],
           replacements := map[],
           teamRankings := [],
           playerRankings := [],
           countdown := Countdown.Timer(10, false, false))
      case Some(f) =>
        var m := |f.teams|;
        t.(players := f.roster,
           tournamentStarted := true,
           teams := FreshTeams(f.teams, first),
           activeGames := FreshGames(first, m),
           completedGames := FreshHistories(first, m),
           replacements := map[],
           teamRankings := IdRange(first, m),
           playerRankings := f.rankings,
           countdown := Countdown.Initial,
           nextTeamId := first + m)
  }

  /** Team `first + i` of a fresh registration holds the `i`-th formed team, and its game
      is the active one. */
  lemma FreshTeamAt(members: seq<seq<Player>>, first: TeamId, i: nat)
    requires i < |members|
    ensures first + i in FreshTeams(members, first) && first + i in FreshGames(first, |members|)
    ensures FreshTeams(members, first)[first + i].members == members[i]
    ensures FreshGames(first, |members|)[first + i] == FreshTeams(members, first)[first + i].game
  {
  }

  /** Registering formed teams from `first` on: team `first + i` holds the `i`-th formed
      team, and its fresh game is the active one. */
  predicate FillsChunks(teams: map<TeamId, Team>, games: map<TeamId, GameRef>, first: TeamId,
                        chunks: seq<seq<Player>>, keep: Player -> bool)
  {
    forall i | 0 <= i < |chunks| ::
      && first + i in teams
      && first + i in games
      && Ids(teams[first + i].members) == Ids(Filter(chunks[i], keep))
      && games[first + i] == teams[first + i].game
  }

  lemma FreshTeamsFill(members: seq<seq<Player>>, first: TeamId, chunks: seq<seq<Player>>, keep: Player -> bool)
    requires |members| == |chunks|
    requires forall i | 0 <= i < |members| :: Ids(members[i]) == Ids(Filter(chunks[i], keep))
    ensures FillsChunks(FreshTeams(members, first), FreshGames(first, |members|), first, chunks, keep)
  {
    forall i | 0 <= i < |chunks|
      ensures first + i in FreshTeams(members, first) && first + i in FreshGames(first, |members|)
      ensures FreshTeams(members, first)[first + i].members == members[i]
      ensures FreshGames(first, |members|)[first + i] == FreshTeams(members, first)[first + i].game
    {
      FreshTeamAt(members, first, i);
    }
  }

  /** Team `nextTeamId + i` holds the reachable players of the `i`-th chunk of the roster,
      and its fresh game is the active one. */
  lemma BuildTeamsFillsChunks(t: State, playersPerTeam: int, unreachable: set<ClientId>)
    requires |t.players| > 0 && !t.tournamentStarted && playersPerTeam != 0
    ensures var r := BuildTeams(t, playersPerTeam, unreachable);
      FillsChunks(r.teams, r.activeGames, t.nextTeamId,
                  Teams.Chunks(t.players, playersPerTeam), Teams.Reachable(unreachable))
  {
    var first := t.nextTeamId;
    var f := Teams.PrepareTeams(t.players, playersPerTeam, unreachable, first).value;
    var r := BuildTeams(t, playersPerTeam, unreachable);
    assert r.teams == FreshTeams(f.teams, first) && r.activeGames == FreshGames(first, |f.teams|);
    FreshTeamsFill(f.teams, first, Teams.Chunks(t.players, playersPerTeam), Teams.Reachable(unreachable));
  }

  /** The state a formation installs keeps the invariant when its roster has unique ids. */
  lemma FormedStateValid(t: State, f: Teams.Formation, first: TeamId)
    requires Distinct(Ids(f.roster)) && f.rankings == f.roster
    ensures Valid(t.(players := f.roster,
                     tournamentStarted := true,
                     teams := FreshTeams(f.teams, first),
                     activeGames := FreshGames(first, |f.teams|),
                     completedGames := FreshHistories(first, |f.teams|),
                     replacements := map[],
                     teamRankings := IdRange(first, |f.teams|),
                     playerRankings := f.rankings,
                     countdown := Countdown.Initial,
                     nextTeamId := first + |f.teams|))
  {
    IdRangeMembers(first, |f.teams|);
  }

  lemma BuildTeamsPreservesValid(t: State, playersPerTeam: int, unreachable: set<ClientId>)
    requires Valid(t)
    ensures Valid(BuildTeams(t, playersPerTeam, unreachable))
  {
    if |t.players| > 0 && !t.tournamentStarted && playersPerTeam != 0 {
      var f := Teams.PrepareTeams(t.players, playersPerTeam, unreachable, t.nextTeamId).value;
      Teams.FilteredIdsDistinct(t.players, Teams.Reachable(unreachable));
      FormedStateValid(t, f, t.nextTeamId);
    }
  }

  // ---------------------------------------------------------------------------------------
  // stopGames
  // ---------------------------------------------------------------------------------------

  /** The active teams whose game reports itself won when stopped. */
  function WonOnStop(t: State, stopReportsWon: set<TeamId>): set<TeamId> {
    set id | id in t.activeGames && id in stopReportsWon
  }

  /** The active games without the won ones. */
  function RetireWon(active: map<TeamId, GameRef>, won: set<TeamId>): (r: map<TeamId, GameRef>)
    ensures forall id :: id in r <==> id in active && id !in won
    ensures forall id | id in r :: r[id] == active[id]
  {
    map id | id in active && id !in won :: active[id]
  }

  /** Each won team's history with its active game appended. */
  function ArchiveWon(completed: map<TeamId, seq<GameRef>>, active: map<TeamId, GameRef>, won: set<TeamId>)
    : (r: map<TeamId, seq<GameRef>>)
    requires won <= active.Keys
    ensures r.Keys == completed.Keys
    ensures forall id | id in completed && id in won :: r[id] == completed[id] + [active[id]]
    ensures forall id | id in completed && id !in won :: r[id] == completed[id]
  {
    map id | id in completed :: if id in won then completed[id] + [active[id]] else completed[id]
  }

  /** Each won team with its completed-game counter raised by one. */
  function CountWon(teams: map<TeamId, Team>, won: set<TeamId>): (r: map<TeamId, Team>)
    ensures r.Keys == teams.Keys
    ensures forall id | id in teams && id in won ::
      r[id] == teams[id].(completedGames := teams[id].completedGames + 1)
    ensures forall id | id in teams && id !in won :: r[id] == teams[id]
  {
    map id | id in teams :: if id in won then teams[id].(completedGames := teams[id].completedGames + 1) else teams[id]
  }

  /** `handleTournamentMsg("stopGames")`: ignored unless the tournament is running;
      otherwise clears both flags, cancels every timer task, and moves each active game
      whose `stop()` reports a win (the teams in `stopReportsWon`) into its team's history,
      counting it as completed. */
  function StopGames(t: State, stopReportsWon: set<TeamId>): (r: State)
    requires Valid(t)
    ensures r.teams.Keys == t.teams.Keys && r.completedGames.Keys == t.completedGames.Keys
    ensures !t.tournamentStarted ==> r == t
    ensures t.tournamentStarted ==>
      && !r.tournamentStarted && !r.gameStarted
      && !r.countdown.live && r.replacements == map[]
      && r.players == t.players && r.playerRankings == t.playerRankings
      && r.teamRankings == t.teamRankings
    ensures t.tournamentStarted ==> forall id | id in t.teams && id in t.activeGames && id in stopReportsWon ::
      && id !in r.activeGames
      && r.completedGames[id] == t.completedGames[id] + [t.activeGames[id]]
      && r.teams[id].completedGames == t.teams[id].completedGames + 1
      && r.teams[id] == t.teams[id].(completedGames := t.teams[id].completedGames + 1)
    ensures t.tournamentStarted ==> forall id | id in t.teams && !(id in t.activeGames && id in stopReportsWon) ::
      && (id in r.activeGames <==> id in t.activeGames)
      && (id in t.activeGames ==> r.activeGames[id] == t.activeGames[id])
      && r.completedGames[id] == t.completedGames[id]
      && r.teams[id] == t.teams[id]
    ensures r.nextTeamId == t.nextTeamId
    ensures r == t.(tournamentStarted := r.tournamentStarted, gameStarted := r.gameStarted,
                    countdown := r.countdown, replacements := r.replacements,
                    activeGames := r.activeGames, completedGames := r.completedGames, teams := r.teams)
    ensures t.tournamentStarted ==> r.countdown == t.countdown.(live := false)
  {
    if !t.tournamentStarted then t
    else
      var won := WonOnStop(t, stopReportsWon);
      t.(tournamentStarted := false,
         gameStarted := false,
         countdown := t.countdown.(live := false),
         replacements := map[],
         activeGames := RetireWon(t.activeGames, won),
         completedGames := ArchiveWon(t.completedGames, t.activeGames, won),
         teams := CountWon(t.teams, won))
  }

  lemma StopGamesPreservesValid(t: State, stopReportsWon: set<TeamId>)
    requires Valid(t)
    ensures Valid(StopGames(t, stopReportsWon))
  {
  }

  // ---------------------------------------------------------------------------------------
  // gameOver and the replacement game
  // ---------------------------------------------------------------------------------------

  /** `gameOver(game)`: only while both flags are set and the game reports itself over, the
      team's active game is retired, `game` is appended to the team's history, the
      team's counter rises by one and a replacement game waits for its cooldown task. A
      game of a team that is no longer registered hits a null team and changes nothing. */
  function GameOver(t: State, game: GameRef, isGameOver: bool): (r: State)
    requires Valid(t)
    ensures r.teams.Keys == t.teams.Keys && r.completedGames.Keys == t.completedGames.Keys
    ensures !(t.tournamentStarted && t.gameStarted && isGameOver) || game.team !in t.teams ==> r == t
    ensures t.tournamentStarted && t.gameStarted && isGameOver && game.team in t.teams ==>
      var id := game.team;
      && id !in r.activeGames
      && r.completedGames[id] == t.completedGames[id] + [game]
      && r.teams[id].completedGames == t.teams[id].completedGames + 1
      && r.teams[id].members == t.teams[id].members
      && r.teams[id].game == GameRef(id, r.teams[id].completedGames)
      && id in r.replacements && r.replacements[id] == r.teams[id].game
      && (forall other | other in t.teams && other != id ::
            && r.teams[other] == t.teams[other]
            && r.completedGames[other] == t.completedGames[other]
            && (other in r.activeGames <==> other in t.activeGames)
            && (other in t.activeGames ==> r.activeGames[other] == t.activeGames[other]))
      && r.tournamentStarted && r.gameStarted
      && r.players == t.players && r.teamRankings == t.teamRankings
      && r.replacements == t.replacements[id := r.teams[id].game]
    ensures r == t.(activeGames := r.activeGames, completedGames := r.completedGames,
                    teams := r.teams, replacements := r.replacements)
  {
    var id := game.team;
    if !(t.tournamentStarted && t.gameStarted && isGameOver) || id !in t.teams then t
    else
      var team := t.teams[id];
      var next := GameRef(id, team.completedGames + 1);
      t.(activeGames := t.activeGames - {id},
         completedGames := t.completedGames[id := t.completedGames[id] + [game]],
         teams := t.teams[id := team.(completedGames := team.completedGames + 1, game := next)],
         replacements := t.replacements[id := next])
  }

  lemma GameOverPreservesValid(t: State, game: GameRef, isGameOver: bool)
    requires Valid(t)
    ensures Valid(GameOver(t, game, isGameOver))
  {
  }

  /** The cooldown task of a replacement game: it makes the game active only if the
      tournament and gameplay are both still running; either way the task is spent. */
  function ActivateReplacement(t: State, id: TeamId): (r: State)
    requires Valid(t) && id in t.replacements
    ensures id !in r.replacements
    ensures t.tournamentStarted && t.gameStarted ==>
      id in r.activeGames && r.activeGames[id] == t.replacements[id]
    ensures !(t.tournamentStarted && t.gameStarted) ==> r.activeGames == t.activeGames
    ensures r.teams == t.teams && r.completedGames == t.completedGames
    ensures r == t.(replacements := t.replacements - {id}, activeGames := r.activeGames)
  {
    var next := t.replacements[id];
    var t' := t.(replacements := t.replacements - {id});
    if t.tournamentStarted && t.gameStarted then t'.(activeGames := t.activeGames[id := next]) else t'
  }

  lemma ActivateReplacementPreservesValid(t: State, id: TeamId)
    requires Valid(t) && id in t.replacements
    ensures Valid(ActivateReplacement(t, id))
  {
  }

  // ---------------------------------------------------------------------------------------
  // addUser
  // ---------------------------------------------------------------------------------------

  /** A join request: client id, display name and the optional game-master flag. */
  datatype Join = Join(clientId: ClientId, username: string, gameMaster: Option<bool>)

  /** The first team, in ranking order, that has an active game and lists `client` among
      its members (the code searches the active games for a team holding the player). */
  function ActiveTeamOf(t: State, client: ClientId, ranks: seq<TeamId>): (r: Option<TeamId>)
    ensures r.Some? ==> r.value in ranks && r.value in t.activeGames && r.value in t.teams
                        && client in Ids(t.teams[r.value].members)
    ensures r.None? ==> forall id | id in ranks && id in t.activeGames && id in t.teams ::
                          client !in Ids(t.teams[id].members)
  {
    if |ranks| == 0 then None
    else if ranks[0] in t.activeGames && ranks[0] in t.teams && client in Ids(t.teams[ranks[0]].members) then Some(ranks[0])
    else ActiveTeamOf(t, client, ranks[1..])
  }

  /** In a valid state the search over the team ranking finds a team exactly when some
      active game's team holds the client, as the search over the active games does. */
  lemma ActiveTeamOfCoversActiveGames(t: State, client: ClientId)
    requires Valid(t)
    ensures ActiveTeamOf(t, client, t.teamRankings).None? <==>
      forall id | id in t.activeGames :: client !in Ids(t.teams[id].members)
  {
  }

  /** The roster after the upsert step of `addUser`: a known client id gets the new display
      name in place, an unknown one is appended as a new, teamless player. */
  function Upsert(ps: seq<Player>, msg: Join): seq<Player> {
    match FindFirst(Ids(ps), msg.clientId)
    case Some(i) => ps[i := ps[i].(gamerTag := msg.username)]
    case None => ps + [Player(msg.clientId, msg.username, None, 0, 0)]
  }

  /** The teams after `client` leaves team `id`: only that team's members change. */
  function LeaveTeam(teams: map<TeamId, Team>, id: TeamId, client: ClientId): (r: map<TeamId, Team>)
    requires id in teams
    ensures r.Keys == teams.Keys
    ensures forall k | k in teams && k != id :: r[k] == teams[k]
    ensures forall k | k in teams :: r[k].completedGames == teams[k].completedGames && r[k].game == teams[k].game
    ensures r[id] == teams[id].(members := RemoveClient(teams[id].members, client))
  {
    teams[id := teams[id].(members := RemoveClient(teams[id].members, client))]
  }

  /** At most one registered team's member list differs between `before` and `after`. */
  predicate AtMostOneTeamChanged(before: map<TeamId, Team>, after: map<TeamId, Team>)
    requires before.Keys == after.Keys
  {
    forall a, b | a in before && b in before
                  && after[a].members != before[a].members
                  && after[b].members != before[b].members :: a == b
  }

  /** A returning player whose client turned out unknown leaves the roster, the player
      ranking and team `id`; nothing else changes. */
  function DropLost(t: State, roster: seq<Player>, id: TeamId, client: ClientId): (r: State)
    requires id in t.teams
    ensures r == t.(players := r.players, playerRankings := r.playerRankings, teams := r.teams)
    ensures r.players == RemoveClient(roster, client)
    ensures r.playerRankings == RemoveClient(t.playerRankings, client)
    ensures r.teams.Keys == t.teams.Keys
    ensures forall k | k in t.teams && k != id :: r.teams[k] == t.teams[k]
    ensures forall k | k in t.teams ::
      r.teams[k].completedGames == t.teams[k].completedGames && r.teams[k].game == t.teams[k].game
    ensures AtMostOneTeamChanged(t.teams, r.teams)
  {
    t.(players := RemoveClient(roster, client),
       playerRankings := RemoveClient(t.playerRankings, client),
       teams := LeaveTeam(t.teams, id, client))
  }

  /** The team recorded on the roster entry of `client`; `None` when that entry has no team
      or the client is not on the roster. */
  function RosterTeam(ps: seq<Player>, client: ClientId): (r: Option<TeamId>)
    ensures r.Some? ==> exists i | 0 <= i < |ps| :: ps[i].clientId == client && ps[i].team == r
    ensures client !in Ids(ps) ==> r.None?
  {
    match FindFirst(Ids(ps), client)
    case Some(i) => ps[i].team
    case None => None
  }

  /** `addUser`: a game master only gets an acknowledgement; a player is upserted; if the
      acknowledgement cannot be published the player is removed from the roster again; if
      a returning player of an active game cannot be re-subscribed because the client is
      unknown (404), it is removed from the player ranking, its team and the roster. The
      subscription topics read the roster entry's team, so when that entry has no team the
      handler fails with a null reference before subscribing and only the upsert remains. */
  function AddUser(t: State, msg: Join, ackFails: bool, resubscribeLost: bool): (r: State)
    ensures msg.gameMaster == Some(true) ==> r == t
    ensures r == t.(players := r.players, playerRankings := r.playerRankings, teams := r.teams)
    ensures r.teams.Keys == t.teams.Keys
    ensures forall id | id in t.teams ::
      r.teams[id].completedGames == t.teams[id].completedGames && r.teams[id].game == t.teams[id].game
    ensures AtMostOneTeamChanged(t.teams, r.teams)
    ensures ackFails || !resubscribeLost || RosterTeam(t.players, msg.clientId).None? ==>
      r.playerRankings == t.playerRankings && r.teams == t.teams
  {
    if msg.gameMaster == Some(true) then t
    else
      var roster := Upsert(t.players, msg);
      var known := msg.clientId in Ids(t.players);
      if ackFails then t.(players := RemoveClient(roster, msg.clientId))
      else if known && resubscribeLost then
        match ActiveTeamOf(t, msg.clientId, t.teamRankings)
        case None => t.(players := roster)
        case Some(id) =>
          if RosterTeam(t.players, msg.clientId).None? then t.(players := roster)
          else DropLost(t, roster, id, msg.clientId)
      else t.(players := roster)
  }

  /** The upsert renames a known client in place, keeping its team and scores, or appends
      an unknown one as a teamless player without moves; no other player changes. */
  lemma UpsertRenamesInPlace(ps: seq<Player>, msg: Join)
    ensures var r := Upsert(ps, msg);
      && |r| == |ps| + (if msg.clientId in Ids(ps) then 0 else 1)
      && Ids(r) == Ids(ps) + (if msg.clientId in Ids(ps) then [] else [msg.clientId])
      && (forall i | 0 <= i < |ps| ::
            r[i] == ps[i] || (ps[i].clientId == msg.clientId && r[i] == ps[i].(gamerTag := msg.username)))
      && (msg.clientId !in Ids(ps) ==> r[|ps|] == Player(msg.clientId, msg.username, None, 0, 0))
  {
    var r := Upsert(ps, msg);
    match FindFirst(Ids(ps), msg.clientId)
    case Some(i) =>
      assert Ids(r) == Ids(ps);
    case None =>
      assert Ids(r) == Ids(ps) + [msg.clientId];
  }

  /** The upsert keeps client ids unique, registers the client exactly once with its new
      display name, and leaves every other player where it was. */
  lemma UpsertRegisters(ps: seq<Player>, msg: Join)
    requires Distinct(Ids(ps))
    ensures var r := Upsert(ps, msg);
      && Distinct(Ids(r))
      && |r| == |ps| + (if msg.clientId in Ids(ps) then 0 else 1)
      && (forall i | 0 <= i < |r| && r[i].clientId == msg.clientId :: r[i].gamerTag == msg.username)
      && msg.clientId in Ids(r)
      && (forall i | 0 <= i < |ps| && ps[i].clientId != msg.clientId :: r[i] == ps[i])
  {
    var r := Upsert(ps, msg);
    match FindFirst(Ids(ps), msg.clientId)
    case Some(i) =>
      assert Ids(r) == Ids(ps);
    case None =>
      assert Ids(r) == Ids(ps) + [msg.clientId];
      assert r[|ps|].clientId == msg.clientId;
  }

  /** A player whose acknowledgement could not be delivered is not on the roster afterwards,
      and nobody else is lost. */
  lemma AddUserAckFailureRemoves(t: State, msg: Join)
    requires Valid(t) && msg.gameMaster != Some(true)
    ensures var r := AddUser(t, msg, true, false);
      && msg.clientId !in Ids(r.players)
      && forall p | p in t.players && p.clientId != msg.clientId :: p in r.players
  {
    UpsertRegisters(t.players, msg);
    var roster := Upsert(t.players, msg);
    forall p | p in t.players && p.clientId != msg.clientId
      ensures p in roster
    {
      var i :| 0 <= i < |t.players| && t.players[i] == p;
      assert roster[i] == p;
    }
  }

  /** A successful join leaves exactly one roster entry for the client, with the new name. */
  lemma AddUserSuccessRegisters(t: State, msg: Join, resubscribeLost: bool)
    requires Valid(t) && msg.gameMaster != Some(true)
    requires !(msg.clientId in Ids(t.players) && resubscribeLost
               && ActiveTeamOf(t, msg.clientId, t.teamRankings).Some?
               && RosterTeam(t.players, msg.clientId).Some?)
    ensures var r := AddUser(t, msg, false, resubscribeLost);
      && r.players == Upsert(t.players, msg)
      && msg.clientId in Ids(r.players)
      && (forall i | 0 <= i < |r.players| && r.players[i].clientId == msg.clientId ::
            r.players[i].gamerTag == msg.username)
  {
    UpsertRegisters(t.players, msg);
  }

  /** A returning player of an active game whose client turned out unknown leaves the
      roster, the player ranking and its team. */
  lemma AddUserLostPlayerRemoved(t: State, msg: Join)
    requires Valid(t) && msg.gameMaster != Some(true)
    requires msg.clientId in Ids(t.players)
    requires ActiveTeamOf(t, msg.clientId, t.teamRankings).Some?
    requires RosterTeam(t.players, msg.clientId).Some?
    ensures var r := AddUser(t, msg, false, true);
      var id := ActiveTeamOf(t, msg.clientId, t.teamRankings).value;
      && msg.clientId !in Ids(r.players)
      && msg.clientId !in Ids(r.playerRankings)
      && (Distinct(Ids(t.teams[id].members)) ==> msg.clientId !in Ids(r.teams[id].members))
      && (forall p | p in t.players && p.clientId != msg.clientId :: p in r.players)
      && (forall p | p in t.playerRankings && p.clientId != msg.clientId :: p in r.playerRankings)
      && id in r.teams
  {
    UpsertRegisters(t.players, msg);
    var roster := Upsert(t.players, msg);
    forall p | p in t.players && p.clientId != msg.clientId
      ensures p in roster
    {
      var i :| 0 <= i < |t.players| && t.players[i] == p;
      assert roster[i] == p;
    }
  }

  lemma AddUserPreservesValid(t: State, msg: Join, ackFails: bool, resubscribeLost: bool)
    requires Valid(t)
    ensures Valid(AddUser(t, msg, ackFails, resubscribeLost))
  {
    UpsertRegisters(t.players, msg);
  }

  // ---------------------------------------------------------------------------------------
  // updateTournamentMessage
  // ---------------------------------------------------------------------------------------

  /** The summary broadcast to game masters: players without a team, and each team that
      some player belongs to, once. */
  datatype Summary = Summary(waiting: seq<Player>, teams: seq<TeamId>)

  function TeamOf(p: Player): Option<TeamId> {
    p.team
  }

  function Unassigned(p: Player): bool {
    p.team.None?
  }

  /** The teams of `updateTournamentMessage`: scanning the roster in order, each assigned
      player's team is added unless it is already listed. */
  function SeatedTeams(ps: seq<Player>): (ts: seq<TeamId>)
    ensures Distinct(ts)
    ensures forall i | 0 <= i < |ps| && ps[i].team.Some? :: ps[i].team.value in ts
    ensures forall id | id in ts :: Some(id) in Map(ps, TeamOf)
  {
    if |ps| == 0 then []
    else
      var p := ps[|ps| - 1];
      var ts := SeatedTeams(ps[..|ps| - 1]);
      SeatedInPrefix(ps, ts);
      if p.team.None? || p.team.value in ts then ts
      else
        assert Map(ps, TeamOf)[|ps| - 1] == p.team;
        ts + [p.team.value]
  }

  /** The split `updateTournamentMessage` computes over the roster: the same scan puts each
      teamless player on the waiting list. */
  function Summarize(ps: seq<Player>): (s: Summary)
    ensures s.waiting == Filter(ps, Unassigned)
    ensures Distinct(s.teams)
    ensures forall i | 0 <= i < |ps| && ps[i].team.Some? :: ps[i].team.value in s.teams
    ensures forall id | id in s.teams :: Some(id) in Map(ps, TeamOf)
  {
    Summary(Filter(ps, Unassigned), SeatedTeams(ps))
  }

  /** The roster position of the first player of team `id`, or the roster size when the
      team has no player. */
  function FirstSeat(ps: seq<Player>, id: TeamId): nat {
    match FindFirst(Map(ps, TeamOf), Some(id))
    case Some(q) => q
    case None => |ps|
  }

  /** Adding a player at the end does not move a team's first seat. */
  lemma FirstSeatExtends(ps: seq<Player>, id: TeamId)
    requires |ps| > 0 && Some(id) in Map(ps[..|ps| - 1], TeamOf)
    ensures FirstSeat(ps, id) == FirstSeat(ps[..|ps| - 1], id) < |ps| - 1
  {
    var n := |ps| - 1;
    assert Map(ps[..n], TeamOf) == Map(ps, TeamOf)[..n];
    FindFirstInPrefix(Map(ps, TeamOf), Some(id), n);
  }

  /** A team first seen in the last player sits at the last position. */
  lemma FirstSeatLast(ps: seq<Player>, id: TeamId)
    requires |ps| > 0 && ps[|ps| - 1].team == Some(id) && Some(id) !in Map(ps[..|ps| - 1], TeamOf)
    ensures FirstSeat(ps, id) == |ps| - 1
  {
    var n := |ps| - 1;
    var seats := Map(ps, TeamOf);
    assert Map(ps[..n], TeamOf) == seats[..n];
    assert seats[n] == Some(id);
    forall m | 0 <= m < n
      ensures seats[m] != Some(id)
    {
      assert seats[..n][m] == seats[m];
    }
  }

  /** The teams of `ts` come in strictly increasing order of their first players' roster
      positions, all of them on the roster. */
  predicate SeatOrdered(ps: seq<Player>, ts: seq<TeamId>) {
    forall i, j | 0 <= i < j < |ts| :: FirstSeat(ps, ts[i]) < FirstSeat(ps, ts[j]) < |ps|
  }

  /** The summary lists the teams in the order of their first member on the roster. */
  lemma {:induction false} SummaryFirstAppearance(ps: seq<Player>)
    ensures SeatOrdered(ps, Summarize(ps).teams)
  {
    SeatedTeamsFirstAppearance(ps);
  }

  lemma {:induction false} SeatedTeamsFirstAppearance(ps: seq<Player>)
    ensures SeatOrdered(ps, SeatedTeams(ps))
    decreases |ps|
  {
    if |ps| > 0 {
      var n := |ps| - 1;
      var front := ps[..n];
      var ts := SeatedTeams(ps);
      var ts0 := SeatedTeams(front);
      SeatedTeamsFirstAppearance(front);
      if ps[n].team.Some? && ps[n].team.value !in ts0 {
        var id := ps[n].team.value;
        assert ts == ts0 + [id];
        assert Some(id) !in Map(front, TeamOf) by {
          forall m | 0 <= m < n
            ensures Map(front, TeamOf)[m] != Some(id)
          {
            assert front[m].team.Some? ==> front[m].team.value in ts0;
          }
        }
        FirstSeatLast(ps, id);
      } else {
        assert ts == ts0;
      }
      SeatOrderExtends(ps, ts0, ts);
    }
  }

  /** A team list ordered by first seat on the roster but its last player stays ordered
      when it is kept, or extended by a team first seated at that last player. */
  lemma SeatOrderExtends(ps: seq<Player>, ts0: seq<TeamId>, ts: seq<TeamId>)
    requires |ps| > 0
    requires forall id | id in ts0 :: Some(id) in Map(ps[..|ps| - 1], TeamOf)
    requires SeatOrdered(ps[..|ps| - 1], ts0)
    requires ts == ts0 || (|ts| == |ts0| + 1 && ts[..|ts0|] == ts0 && FirstSeat(ps, ts[|ts0|]) == |ps| - 1)
    ensures SeatOrdered(ps, ts)
  {
    forall k | 0 <= k < |ts0|
      ensures FirstSeat(ps, ts0[k]) == FirstSeat(ps[..|ps| - 1], ts0[k]) < |ps| - 1
    {
      FirstSeatExtends(ps, ts0[k]);
    }
    forall i, j | 0 <= i < j < |ts|
      ensures FirstSeat(ps, ts[i]) < FirstSeat(ps, ts[j]) < |ps|
    {
      assert ts[i] == ts0[i] by {
        if ts != ts0 {
          assert ts[..|ts0|][i] == ts[i];
        }
      }
      if j < |ts0| {
        assert ts[j] == ts0[j] by {
          if ts != ts0 {
            assert ts[..|ts0|][j] == ts[j];
          }
        }
      }
    }
  }

  /** Teams seated before the last player are still seated when it is added, and every
      player but the last is a player of the prefix. */
  lemma SeatedInPrefix(ps: seq<Player>, ts: seq<TeamId>)
    requires |ps| > 0
    requires forall id | id in ts :: Some(id) in Map(ps[..|ps| - 1], TeamOf)
    ensures forall id | id in ts :: Some(id) in Map(ps, TeamOf)
    ensures forall i | 0 <= i < |ps| - 1 :: ps[i] == ps[..|ps| - 1][i]
  {
    assert Map(ps[..|ps| - 1], TeamOf) == Map(ps, TeamOf)[..|ps| - 1];
  }

  /** Every player is either waiting or counted in a listed team. */
  lemma {:induction false} SummaryCovers(ps: seq<Player>)
    ensures |Summarize(ps).waiting| + |Filter(ps, (p: Player) => p.team.Some?)| == |ps|
    decreases |ps|
  {
    if |ps| > 0 {
      SummaryCovers(ps[..|ps| - 1]);
    }
  }

  // ---------------------------------------------------------------------------------------
  // troubleFlipper / greenShell targeting
  // ---------------------------------------------------------------------------------------

  /** The outcome of an attack request: ignored outside gameplay, no target for the leading
      team, an exception for a team missing from the ranking (`indexOf` gives -1 and
      `get(-2)` throws), or the team ranked immediately above the attacker. */
  datatype Attack = Inactive | FirstPlace | NotRanked | Hit(target: TeamId)

  /** The rank-relative targeting shared by `troubleFlipper` and `greenShell`. */
  function AttackTarget(t: State, attacker: TeamId): (a: Attack)
    ensures a.Inactive? <==> !(t.tournamentStarted && t.gameStarted)
    ensures a.FirstPlace? <==>
      t.tournamentStarted && t.gameStarted && |t.teamRankings| > 0 && t.teamRankings[0] == attacker
    ensures a.NotRanked? <==> t.tournamentStarted && t.gameStarted && attacker !in t.teamRankings
    ensures a.Hit? ==> a.target != attacker
    ensures a.Hit? ==> exists r | 1 <= r < |t.teamRankings| ::
      t.teamRankings[r] == attacker && attacker !in t.teamRankings[..r] && a.target == t.teamRankings[r - 1]
  {
    if !(t.tournamentStarted && t.gameStarted) then Inactive
    else
      match FindFirst(t.teamRankings, attacker)
      case None => NotRanked
      case Some(r) =>
        if r == 0 then FirstPlace
        else
          assert t.teamRankings[..r][r - 1] == t.teamRankings[r - 1];
          Hit(t.teamRankings[r - 1])
  }

  /** Applies a game-level attack to the target team's current game, if there is one. */
  function ApplyAttack(games: map<TeamId, Board.Game>, a: Attack, hit: Board.Game -> Board.Game)
    : (r: map<TeamId, Board.Game>)
    ensures r.Keys == games.Keys
    ensures forall id | id in games && !(a.Hit? && id == a.target) :: r[id] == games[id]
  {
    if a.Hit? && a.target in games then games[a.target := hit(games[a.target])] else games
  }

  /** Bowser's attack on a game: `Game.troubleFlipper` with the given shuffle rolls. */
  function FlipperHit(rolls: seq<nat>): (hit: Board.Game -> Board.Game)
    ensures forall g: Board.Game :: g.immune ==> hit(g) == g
    ensures forall g: Board.Game :: multiset(hit(g).board) == multiset(g.board) && hit(g).immune == g.immune
  {
    g => Board.TroubleFlipper(g, rolls)
  }

  /** Goomba's attack on a game: the green shell with the given shuffle rolls, as the
      exchange of the two picked correct pieces that `Game.greenShell` intends. */
  function GreenShellHit(rolls: seq<nat>): (hit: Board.Game -> Board.Game)
    ensures forall g: Board.Game :: g.immune || |Board.CorrectSlots(g.board)| < 2 ==> hit(g) == g
    ensures forall g: Board.Game :: multiset(hit(g).board) == multiset(g.board) && hit(g).immune == g.immune
  {
    g => Board.GreenShellIntended(g, rolls)
  }

  /** An attack by the leading team changes no board, and no attack changes the
      attacker's own board. */
  lemma AttackSparesLeaderAndAttacker(t: State, attacker: TeamId, games: map<TeamId, Board.Game>,
                                      hit: Board.Game -> Board.Game)
    ensures var r := ApplyAttack(games, AttackTarget(t, attacker), hit);
      && (|t.teamRankings| > 0 && t.teamRankings[0] == attacker ==> r == games)
      && (attacker in games ==> r[attacker] == games[attacker])
  {
  }

  /** An immune target keeps its board under both attacks, so no board changes at all. */
  lemma ImmuneTargetUnchanged(t: State, attacker: TeamId, games: map<TeamId, Board.Game>, rolls: seq<nat>)
    requires var a := AttackTarget(t, attacker); a.Hit? && a.target in games && games[a.target].immune
    ensures ApplyAttack(games, AttackTarget(t, attacker), FlipperHit(rolls)) == games
    ensures ApplyAttack(games, AttackTarget(t, attacker), GreenShellHit(rolls)) == games
    ensures ApplyAttack(games, AttackTarget(t, attacker), (g: Board.Game) => Board.GreenShell(g, rolls)) == games
  {
  }

  // ---------------------------------------------------------------------------------------
  // Periodic tasks
  // ---------------------------------------------------------------------------------------

  /** One run of the character-selection countdown; `startGames` sets `gameStarted`. */
  function CountdownTick(t: State, allGamesReady: bool, publishFails: bool): (r: State)
    ensures r.gameStarted <==>
      t.gameStarted || (t.tournamentStarted && allGamesReady && t.countdown.live && t.countdown.waitCounter > 1)
    ensures r.gameStarted ==> r.tournamentStarted || t.gameStarted
    ensures r.countdown == Countdown.Step(t.countdown, Countdown.Input(t.tournamentStarted, allGamesReady, publishFails)).next
    ensures !t.countdown.live ==> r == t
    ensures !t.tournamentStarted ==> !r.countdown.live
    ensures r.gameStarted && !t.gameStarted ==> !r.countdown.live
    ensures r == t.(countdown := r.countdown, gameStarted := r.gameStarted)
  {
    var tick := Countdown.Step(t.countdown, Countdown.Input(t.tournamentStarted, allGamesReady, publishFails));
    t.(countdown := tick.next, gameStarted := t.gameStarted || tick.startGames)
  }

  lemma CountdownTickPreservesValid(t: State, allGamesReady: bool, publishFails: bool)
    requires Valid(t)
    ensures Valid(CountdownTick(t, allGamesReady, publishFails))
  {
    if t.countdown.live {
      Countdown.StepSpendsBudget(t.countdown, Countdown.Input(t.tournamentStarted, allGamesReady, publishFails));
    }
  }

  /** One run of the player-score task: re-sorts the player ranking while gameplay runs. */
  function RankPlayersTick(t: State): (r: State)
    ensures !(t.tournamentStarted && t.gameStarted) ==> r == t
    ensures r == t.(playerRankings := r.playerRankings)
    ensures multiset(r.playerRankings) == multiset(t.playerRankings)
    ensures t.tournamentStarted && t.gameStarted ==>
      forall i, j | 0 <= i < j < |r.playerRankings| :: Score(r.playerRankings[i]) >= Score(r.playerRankings[j])
    ensures forall k :: Ranking.WithKey(r.playerRankings, Ranking.PlayerKey, k) == Ranking.WithKey(t.playerRankings, Ranking.PlayerKey, k)
  {
    if t.tournamentStarted && t.gameStarted then t.(playerRankings := Ranking.RankPlayers(t.playerRankings))
    else t
  }

  /** The completed-game counter the team comparator reads. */
  function CompletedOf(t: State): TeamId -> int {
    id => if id in t.teams then t.teams[id].completedGames else 0
  }

  lemma RankPlayersTickPreservesValid(t: State)
    requires Valid(t)
    ensures Valid(RankPlayersTick(t))
  {
    var r := RankPlayersTick(t);
    DistinctIdsByMultiset(r.playerRankings, t.playerRankings);
  }

  /** One run of the team-rank task: re-sorts the team ranking while gameplay runs;
      `correct` gives each team's cached count of correct pieces in its current game. */
  function RankTeamsTick(t: State, correct: TeamId -> int): (r: State)
    ensures !(t.tournamentStarted && t.gameStarted) ==> r == t
    ensures r == t.(teamRankings := r.teamRankings)
    ensures multiset(r.teamRankings) == multiset(t.teamRankings)
    ensures t.tournamentStarted && t.gameStarted ==>
      forall i, j | 0 <= i < j < |r.teamRankings| ::
        || CompletedOf(t)(r.teamRankings[i]) > CompletedOf(t)(r.teamRankings[j])
        || (CompletedOf(t)(r.teamRankings[i]) == CompletedOf(t)(r.teamRankings[j])
            && correct(r.teamRankings[i]) >= correct(r.teamRankings[j]))
    ensures forall k :: Ranking.WithKey(r.teamRankings, Ranking.TeamKey(CompletedOf(t), correct), k)
                        == Ranking.WithKey(t.teamRankings, Ranking.TeamKey(CompletedOf(t), correct), k)
  {
    if t.tournamentStarted && t.gameStarted then
      t.(teamRankings := Ranking.RankTeams(t.teamRankings, CompletedOf(t), correct))
    else t
  }

  lemma RankTeamsTickPreservesValid(t: State, correct: TeamId -> int)
    requires Valid(t)
    ensures Valid(RankTeamsTick(t, correct))
  {
    var r := RankTeamsTick(t, correct);
    DistinctByMultiset(r.teamRankings, t.teamRankings);
    forall id | id in t.teams
      ensures id in r.teamRankings
    {
      assert id in multiset(t.teamRankings);
    }
    forall i | 0 <= i < |r.teamRankings|
      ensures r.teamRankings[i] in t.teams
    {
      assert r.teamRankings[i] in multiset(r.teamRankings);
    }
  }
}
